=== FILE: README.md ===
# A verified model of the viper forward model and its CRIRES+ reader

viper fits radial velocities (RVs) to échelle spectra. It uses a forward model:

1. A stellar template is multiplied by a gas-cell or telluric spectrum on a
   uniformly sampled log-wavelength grid.
2. The product is convolved with an instrumental profile (IP).
3. The result is resampled to detector pixels through a polynomial
   wavelength solution.
4. It is scaled by a polynomial continuum.

This project models, in Dafny, the discrete parts of that pipeline:

- **`model.py`**: the IP kernels and their normalisation, `poly` and `pade`,
  the grids that `model.__init__` prepares, and the steps of
  `model.__call__`. It also covers the packing and unpacking of parameter
  groups in `model.fit`, and the band, design matrix and row flattening of
  `model_bnd`.
- **`inst/inst_CRIRES.py`**:
  - the mapping between viper's linear order number and the pair
    (DRS order, detector);
  - the FITS column names and how they are parsed back;
  - the pixel index and bad-pixel flags;
  - the exposure-time rule;
  - the numbering of the `RAW<n> NAME` header cards;
  - the rule that fills orders the template run did not process.
- **`viper.py`**:
  - the common wavelength window;
  - the `searchsorted` trimming with its ±100 km/s margin;
  - the initial guesses handed from one fitting stage to the next;
  - the NaN-tolerant aggregation of per-order RVs;
  - the interleaved output row.

Modules follow the program's structure:

| module | covers |
|---|---|
| `Values`, `Sums`, `Slices` | IEEE values as `Finite`/`Inf`/`NaN` with numpy's division, finite sums and dot products, Python slicing (`values.dfy`, `sums.dfy`, `slices.dfy`) |
| `Decimal` | `str(int)` and `int(str)` (`decimal.dfy`) |
| `Polynomials`, `Kernels`, `Forward`, `Parameters`, `Band` | `model.py` (`polynomials.dfy`, `kernels.dfy`, `forward.dfy`, `parameters.dfy`, `band.dfy`) |
| `Crires` | `inst/inst_CRIRES.py` (`crires.dfy`) |
| `Orchestration` | `viper.py` (`orchestration.dfy`) |

Real arithmetic is exact (`real`). Transcendental functions are either
left out or passed in as parameters; see "Left out".

## Model

| member | source | states |
|---|---|---|
| Slices.Bound | model.py:113 | A Python slice index clamps to `[0, n]`, and a negative index counts from the end |
| Slices.Slice | model.py:113 | `s[start:stop]` is the contiguous run between the clamped bounds, or empty when they cross |
| Slices.Reverse | model.py:87 | `a[::-1]` has the same length, and entry `i` is `a[n-1-i]` |
| Values.Divide | model.py:15 | numpy's float division raises nothing: it is finite exactly when the divisor is non-zero, and then times the divisor gives the dividend; for a zero divisor it is NaN exactly when the dividend is 0, and otherwise an infinity with the dividend's sign (for a `+0.0` divisor; signed zeros are not modelled) |
| Values.DivideFloats | inst/inst_CRIRES.py:134 | numpy's division of two doubles: the quotient of the finite values when both are finite; NaN exactly when either is NaN, both are infinite, or both are 0; finite exactly when the dividend is finite and the divisor is infinite or non-zero |
| Values.ScaleBy | inst/inst_CRIRES.py:124-126 | Scaling by a positive factor keeps finiteness and NaN-ness, and dividing the result by the factor recovers the value |
| Decimal.NatToString | inst/inst_CRIRES.py:76-77 | `str` of a natural number is a non-empty run of digits with no leading zero |
| Decimal.IntToString | inst/inst_CRIRES.py:76-77 | `str(i)` is non-empty and starts with `-` exactly for negative `i` |
| Decimal.ParseInt | inst/inst_CRIRES.py:232 | `int()` of a digit string is its decimal value; a non-digit string without a sign is rejected |
| Decimal.NatToStringValue | inst/inst_CRIRES.py:232 | The digits written by `str` read back as the same number |
| Decimal.IntToStringRoundTrip | inst/inst_CRIRES.py:232 | `int(str(i)) == i` for every integer |
| Decimal.ZeroPaddedRoundTrip | inst/inst_CRIRES.py:232 | `int("0" + str(i))` is `i` for `i >= 0` and an error for negative `i` |
| Polynomials.PolyEmpty | model.py:85-87 | `poly(x, [])` is 0 |
| Polynomials.Poly | model.py:85-87 | `poly(x, a)`, numpy `polyval` of the reversed list, is the ascending sum Σ aᵢxⁱ with `a0` the constant term |
| Polynomials.HornerCons | model.py:85-87 | On the reversed list, Horner's scheme adds the constant coefficient last: `a0 + x·(rest)` |
| Polynomials.HornerReversedIsPowerSum | model.py:85-87 | Horner's scheme on `a[::-1]` equals Σ aᵢxⁱ for every coefficient list |
| Polynomials.PolyCons | model.py:85-87 | `poly(x, [a0] + r) == a0 + x * poly(x, r)` |
| Polynomials.PowerSumCons | model.py:85-87 | The reference power sum Σ aᵢxⁱ satisfies the same recurrence |
| Polynomials.PolyIsPowerSum | model.py:85-87 | Horner evaluation of the reversed coefficients (numpy `polyval`) equals Σ aᵢxⁱ with `a0` the constant term |
| Polynomials.PolyZeroExtension | model.py:85-87 | Appending zero higher-order coefficients does not change `poly` |
| Polynomials.PolyAtZero | model.py:85-87 | `poly(0, a) == a[0]` |
| Polynomials.EvalPoly | model.py:85-87 | The loop-based evaluation computes Σ aᵢxⁱ |
| Polynomials.Pade | model.py:89-95 | `pade` at a pole, where `1 + x·poly(x, b)` vanishes, is reported as `None` (numpy gives inf/NaN there; see Polynomials.PadeAsWritten); otherwise the result times the denominator is `poly(x, a)`, and with no `b` it is `poly(x, a)` |
| Polynomials.PadeAsWritten | model.py:89-95 | `pade` as numpy evaluates it: equal to Pade's value where Pade is defined, and non-finite at a pole, NaN exactly when the numerator vanishes there too |
| Polynomials.PadeWithoutDenominator | model.py:89-95 | `pade(x, a, []) == poly(x, a)` |
| Kernels.VelocityGrid | model.py:112 | `vk` has `2·IP_hs + 1` entries |
| Kernels.VelocityGridShape | model.py:112 | `vk` is 0 in the middle, antisymmetric about it, and strictly increasing for a positive step |
| Kernels.Normalise | model.py:14-15 | The corrected normalisation: it reports a zero sum as failure (the code divides silently; see "Findings"); otherwise the kernel sums to 1 and each entry times the old sum gives back the old entry |
| Kernels.NormaliseAsWritten | model.py:14-15 | `IP_k /= IP_k.sum()` as written: with a non-zero sum each entry times the sum gives back the old entry; with a zero sum no entry is finite, and the entries that were 0 become NaN |
| Kernels.NormaliseAsWrittenAgrees | model.py:14-15 | Where Normalise succeeds the code as written gives the same kernel; where Normalise reports the zero sum the code as written returns a kernel with no finite entry |
| Kernels.Clip | model.py:57 | `clip(0, None)` replaces each entry with max(entry, 0) |
| Kernels.ClipNormalise | model.py:57-58 | The corrected clip-then-normalise reports failure exactly when no entry is positive (the code gives an all-NaN kernel; see "Findings"); otherwise the kernel is non-negative, sums to 1, and is zero exactly where the input was not positive |
| Kernels.McgProfile | model.py:53-56 | The multi-central profile is the main Gaussian plus `a1/10` times the background Gaussian |
| Kernels.McgKernel | model.py:51-59 | The corrected `IP_mcg` is a non-negative kernel summing to 1, and reports failure exactly when the combined profile has no positive entry |
| Kernels.McgKernelAsWritten | model.py:51-59 | `IP_mcg` as written agrees with McgKernel where that succeeds, and where McgKernel reports failure it returns NaN in every entry |
| Kernels.McgKernelNaNAtMinusTen | model.py:51-59 | With `a1 = −10` and a background Gaussian at least as wide as the main one, the profile is nowhere positive, McgKernel fails, and `IP_mcg` as written returns NaN everywhere |
| Kernels.SplineAmplitudes | model.py:65-68 | The amplitude vector gains one entry: a unit amplitude at index `len(a)//2`, with the given amplitudes around it in order |
| Kernels.SplineAmplitudesRoundTrip | model.py:66-68 | Removing the inserted unit amplitude gives back the given amplitudes |
| Kernels.KnotCentroid | model.py:71 | The corrected centroid `xm` reports failure exactly when the amplitudes sum to 0 (the code divides silently; see "Findings"); otherwise `xm · Σa == Σ aᵢ·i` |
| Kernels.KnotCentroidAsWritten | model.py:71 | `np.dot(xl, a) / sum(a)` as written equals KnotCentroid where that succeeds, and is non-finite where it fails, NaN exactly when the weighted sum is 0 too |
| Kernels.KnotCentroidNaNExample | model.py:64-71 | Two free amplitudes squashed to −1/2 give amplitudes `[−1/2, 1, −1/2]`, whose sum and weighted sum are 0: KnotCentroid fails and the code's centroid is NaN |
| Kernels.KnotPositions | model.py:71-73 | The recentred knot positions have amplitude-weighted mean 0 and uniform spacing 0.9 |
| Forward.EffectiveGrid | model.py:113 | The valid grid keeps `lnwave[h..n-h)`: `n - 2h` entries, entry `k` being `lnwave[k+h]` |
| Forward.EffectiveGridAsWritten | model.py:113 | `lnwave_j[IP_hs:-IP_hs]` as written: for `IP_hs >= 1` the knots `IP_hs .. n-IP_hs-1`, and for `IP_hs = 0` nothing |
| Forward.EffectiveGridAsWrittenAgrees | model.py:113 | For `IP_hs >= 1` the Python slice `lnwave[IP_hs:-IP_hs]` equals the valid grid |
| Forward.EffectiveGridAsWrittenEmptyAtZero | model.py:113 | For `IP_hs = 0` the slice as written is empty, while the valid convolution has `n` values |
| Forward.SetupGrid | model.py:110-113 | Setup fails exactly when the grid has fewer than two knots; `dx` is the first step and `vk` is the velocity grid for `dx·c`; the effective grid is the slice as written: the valid window for `IP_hs >= 1`, empty for `IP_hs = 0` |
| Forward.DefaultSetupIsValidGrid | model.py:103-113 | With the default `IP_hs = 50` the effective grid is the valid window: `n − 100` knots starting at knot 50 |
| Forward.ValidConvolve | model.py:134 | `np.convolve(..., mode='valid')` fails exactly on an empty input; otherwise it has `max - min + 1` values |
| Forward.ConvolutionFitsEffectiveGrid | model.py:133-134 | Convolving a `2h+1` kernel with a signal on the knot grid gives exactly one value per point of the effective grid |
| Forward.ConvolutionPreservesFlat | model.py:134 | A normalised kernel maps a constant spectrum to the same constant |
| Forward.ConvolutionWithCentredUnit | model.py:134 | A unit impulse at the kernel centre returns the signal restricted to the effective grid |
| Forward.PlanTellurics | model.py:121-129 | The molecules zipped with `coeff_atm` get the absolute coefficients as exponents; the shift is applied exactly when there is one coefficient more than molecules, and it is the last coefficient |
| Forward.AbsorberProduct | model.py:123-125 | The loop multiplies `flux_mol ** abs(coeff)` over the zipped molecules, knot by knot |
| Forward.ZeroExponentsTransparent | model.py:124-125 | With all exponents 0 the atmosphere is transparent (factor 1) |
| Forward.Illuminate | model.py:134 | The convolved signal is star × (gas + `coeff_bkg[0]`); an empty background list fails |
| Forward.DefaultBackgroundIsNeutral | model.py:117 | The default background `[0]` leaves star × gas unchanged |
| Forward.FitWithoutBackgroundFails | model.py:148-166 | With `fit`'s defaults `par_bkg = []` and `parfix_bkg = []`, `coeff_bkg` is empty and `coeff_bkg[0]` fails, whatever the other groups hold |
| Forward.BackgroundArgument | model.py:117 | The corrected background argument: an empty group becomes `__call__`'s default `[0]`; any other group passes unchanged |
| Forward.FitWithoutBackgroundIsNeutral | model.py:117-134 | With that correction a fit without background parameters evaluates star × gas, the same as a direct call with the default `[0]` |
| Forward.ApplyContinuum | model.py:144 | Each pixel is the resampled model times Σ aᵢ(pixel − xcen)ⁱ |
| Forward.ContinuumNeutral | model.py:144 | The continuum `[1]` leaves the model unchanged, and trailing zero coefficients change nothing |
| Parameters.Chain | model.py:154-159 | The chained slices start at the given offset, and each slice is as long as its group |
| Parameters.GroupSlices | model.py:154-159 | There is one slice per parameter group |
| Parameters.ChainSliceRecovers | model.py:154-168 | Slicing the concatenated vector with the k-th chained slice gives back group k |
| Parameters.ChainLastStop | model.py:159 | The last slice stops at the end of the concatenated vector |
| Parameters.SlicesPartitionInitialVector | model.py:154-168 | The slices of `sv`, `sa`, `sb`, `ss`, `st`, `sc` lie inside `p0` and cut it back into the free groups |
| Parameters.SlicesContiguous | model.py:154-159 | Each slice starts where the previous one stops |
| Parameters.ChainContiguous | model.py:154-159 | Consecutive chained slices touch |
| Parameters.SlicesDisjoint | model.py:154-159 | Earlier slices stop before later ones start |
| Parameters.ReassembleInitialVector | model.py:166-172 | At `p0`, every reassembled argument is its free group followed by its fixed group |
| Parameters.EvaluatorArguments | model.py:166 | For any solver vector, `S_model` passes six argument groups: group `k` is the solver's entries in slice `k` followed by the fixed tuple `k`; at `p0` these are the original groups |
| Parameters.RvArgument | model.py:152-166 | When exactly one of `par_rv`/`parfix_rv` is given, `rv` is one value: the fitted one or the fixed one |
| Parameters.RvReport | model.py:170 | `par_rv` is (value, variance) for a free `rv`, and empty when `rv` is fixed |
| Band.TruncateToInt | model.py:242 | `astype(int)` truncates toward zero |
| Band.BandRow | model.py:242 | Each band row has `2·IP_hs + 1` knot indices |
| Band.BandRowShape | model.py:242 | A band row is consecutive integers centred on the truncated trace position |
| Band.BandTable | model.py:242 | `bnd` has one row per pixel, the row for that pixel's trace position |
| Band.BandRowInGrid | model.py:242-245 | Every index of a band row lies in a grid of `n` knots exactly when `int(jx)` is at least `IP_hs` knots from both ends; otherwise `lnwave_j[bnd]` reads a negative or out-of-range index |
| Band.BandInGridFromTrace | model.py:235-245 | A trace at least `IP_hs` knots from both grid ends keeps all of `lnwave_j[bnd]` in range |
| Band.DesignRow | model.py:248 | A row of `vander(x - mean, degk)[:, ::-1]` has `degk` entries |
| Band.DesignRowEvaluatesPoly | model.py:248 | Dotting coefficients with a design row evaluates `poly` at that point |
| Band.DesignMatrix | model.py:248 | `Bxk` has one row per pixel: the ascending powers of the pixel minus `x.mean()`; no pixels give no rows |
| Band.DesignMatrixCentred | model.py:248 | The constant column of `Bxk` is all ones, and its linear column sums to zero |
| Band.PixelDesign | model.py:255 | The einsum result per pixel is a `degk × nl` matrix |
| Band.PixelDesignFactors | model.py:255 | Each entry `A[x][k][l]` factors as `Bxk[x][k]` times the pixel's response for Gaussian `l` |
| Band.PyIndex | model.py:245 | An integer index into `n` entries is valid exactly in `[-n, n)`, and a negative one counts from the end |
| Band.GatherRow | model.py:255 | `s[row]` fails exactly when some index lies outside `[-n, n)`; otherwise it has one value per index |
| Band.Gather | model.py:255 | `(starj*spec_cell_j)[bnd]` gathers one band per pixel, and fails exactly when some band does |
| Band.GatherInGrid | model.py:242-255 | A band inside the grid gathers the contiguous window `s[int(jx)-h .. int(jx)+h]` |
| Band.GatherWrapsBelow | model.py:242-255 | A band starting below knot 0 (but not below `-n`) raises nothing; its first value is read from the far end, `s[n + int(jx) - h]` |
| Band.GatherFailsAbove | model.py:242-255 | A band reaching past the last knot is an IndexError |
| Band.FlattenRow | model.py:267 | Reshaping the per-pixel matrix gives `degk·nl` columns |
| Band.FlattenRowIndex | model.py:267 | Flattened column `c` is entry `[c / nl][c % nl]` (row-major reshape) |
| Band.DesignTable | model.py:253-267 | `Axkl.reshape((len(Axkl), -1))` has one row per pixel of `degk·nl` columns |
| Band.DesignTableEntry | model.py:253-267 | Column `k·nl + l` of pixel `x` is `Bxk[x][k]` times that pixel's band response to Gaussian `l` |
| Band.DefaultColumnCount | model.py:226-248 | With `degk = 3` and five Gaussian offsets, the least-squares matrix has 15 columns |
| Crires.OrderToDrs | inst/inst_CRIRES.py:44-46 | `divmod(order-1, 3)` yields a detector in 1..3, and the pair maps back to the same linear order |
| Crires.LinearOrder | inst/inst_CRIRES.py:233 | For a detector in 1..3, `divmod(o − 1, 3)` of `(7 − odrs)·3 + detector` is `(7 − odrs, detector − 1)` |
| Crires.DrsToOrderRoundTrip | inst/inst_CRIRES.py:231-233 | `(7 - odrs)·3 + detector` followed by the divmod recovers (DRS order, detector) |
| Crires.OrderSetRange | inst/inst_CRIRES.py:38-46 | The orders 1..18 of `oset = '1:19'` map to DRS orders 2..7 |
| Crires.FirstField | inst/inst_CRIRES.py:232 | `split('_')[0]` is the longest underscore-free prefix |
| Crires.FirstFieldOfJoin | inst/inst_CRIRES.py:232 | The first field of `p + "_" + rest` is `p` when `p` has no underscore |
| Crires.ColumnName | inst/inst_CRIRES.py:235-237 | The first `_`-field of `"0"+str(odrs)+"_01_"+kind` is the zero-padded order, and the name ends in the kind |
| Crires.ColumnOrder | inst/inst_CRIRES.py:232 | `int(cc.split('_')[0])` parses a name without `_` whole, and rejects a name whose first field is empty |
| Crires.ColumnNameRoundTrip | inst/inst_CRIRES.py:232 | `int(name.split('_')[0])` recovers the DRS order from `"0"+str(odrs)+"_01_…"` for non-negative orders |
| Crires.OrderColumnRoundTrip | inst/inst_CRIRES.py:231-236 | Writing an order's columns and parsing them back gives the same linear order |
| Crires.ColumnNamesDistinct | inst/inst_CRIRES.py:235-237 | Column names coincide exactly when both the order and the kind (WL, SPEC, ERR) coincide |
| Crires.EveryThird | inst/inst_CRIRES.py:231 | `cols[::3]` has ⌈n/3⌉ entries, entry `i` being `cols[3i]` |
| Crires.EveryThirdVisitsEachOrder | inst/inst_CRIRES.py:229-233 | Over a table of WL/SPEC/ERR triples, `cols[::3]` visits each DRS order once, in table order |
| Crires.FlagPixels | inst/inst_CRIRES.py:136 | `1 * isnan(spec)` is 1 exactly at NaN pixels and 0 elsewhere |
| Crires.ToAngstrom | inst/inst_CRIRES.py:124-126 | Wavelengths are scaled by 10 from nm to Å |
| Crires.ReadChunk | inst/inst_CRIRES.py:101-136 | `pixel` is 0..n-1; the flux is passed through when the calibration string contains `CAL_FLAT_EXTRACT_1D` and is otherwise divided by the blaze pixel by pixel; the flags mark NaN in the flux after that division; err passes through; and the wavelengths are the table's times 10 (nm to Å): finite exactly when the table's is, and then ten times its value |
| Crires.ReadChunkFlags | inst/inst_CRIRES.py:128-136 | For a frame already blaze corrected a pixel is flagged exactly when its flux is NaN; otherwise exactly when flux or blaze is NaN, both are infinite, or both are 0 |
| Crires.BlazeGapIsFlagged | inst/inst_CRIRES.py:128-136 | A finite flux over a NaN blaze pixel is flagged when the blaze is applied and not flagged for a frame already corrected |
| Crires.ExposureTime | inst/inst_CRIRES.py:55-99 | A missing `ESO PRO CATG` card fails; a combined frame with a TMID card has exposure 0; otherwise `DATE-OBS` must be present, and PyCPL also needs the DIT, DATANCOM and NDIT cards, which astropy defaults |
| Crires.ExposureTimeRule | inst/inst_CRIRES.py:67-73 | Otherwise the exposure is DIT·DATANCOM·NDIT/4 for nod A or B frames and /2 for the others |
| Crires.ExposureTimeWithoutDit | inst/inst_CRIRES.py:98-99 | Under astropy a missing DIT card gives exposure 0 |
| Crires.RawKeyInjective | inst/inst_CRIRES.py:216 | Distinct numbers give distinct `RAW<n> NAME` keys |
| Crires.RawCards | inst/inst_CRIRES.py:214-216 | Each card records the file at its number's list position, numbers running in 1..n and descending by one from card to card |
| Crires.RawNumbering | inst/inst_CRIRES.py:214-216 | List entry `k` is recorded under `RAW<k+1>` by exactly one card, and the numbers used are exactly 1..n |
| Crires.InsertAfterId | inst/inst_CRIRES.py:291-293 | Inserting after `REC2 ID` keeps the existing block at the end and adds exactly the new cards |
| Crires.InsertAfterIdReverses | inst/inst_CRIRES.py:291-293 | Inserting each card right after `REC2 ID` leaves the cards in reverse order of insertion |
| Crires.RawCardOrderInHeader | inst/inst_CRIRES.py:291-293 | The appending writer lists the cards by descending number; in the astropy header they read RAW1, RAW2, …, RAWn, card `k` holding list entry `k` |
| Crires.FillOrder | inst/inst_CRIRES.py:234-243 | A processed order gets the template's WL/SPEC/ERR, and fails if either the wavelength or the error table lacks it; an unprocessed order gets its wavelengths ×10, 2048 ones and 2048 NaNs |
| Crires.WriteDetector | inst/inst_CRIRES.py:302-314 | Every column triple of a detector is filled by that rule, at linear order `(7-odrs)·3 + detector`; writing fails exactly when one order does |
| Crires.UnprocessedOrderKeepsWavelengths | inst/inst_CRIRES.py:311-312 | An unprocessed order's wavelengths are converted exactly as the reader converts them |
| Orchestration.CommonWindow | viper.py:65-66 | The window is the largest first wavelength and the smallest last wavelength of the three spectra; an empty spectrum has none |
| Orchestration.WindowInsideEveryGrid | viper.py:65-66 | Every wavelength in the window lies inside each spectrum's range |
| Orchestration.CountBelow | viper.py:70 | The count of entries below `x` is at most the length |
| Orchestration.CountBelowSplits | viper.py:70 | On a sorted array, all entries before the left insertion point are `< x` and all from it on are `>= x` |
| Orchestration.InsertionPointUnique | viper.py:70 | On a sorted array, that split holds at exactly one position, the count of entries below `x` |
| Orchestration.SplitIsCount | viper.py:70 | Any split position equals the count of entries below `x` |
| Orchestration.CountBelowMonotone | viper.py:70 | The insertion point does not decrease as `x` grows |
| Orchestration.SearchSorted | viper.py:70 | Binary search returns `searchsorted(a, x)` (left side) |
| Orchestration.Trim | viper.py:70-71 | `a[slice(*searchsorted(a, [lo, hi]))]` keeps only entries in `[lo, hi)` of a sorted array, as many as lie below `hi` but not below `lo` |
| Orchestration.TrimKeepsWindow | viper.py:70-71 | `a[slice(*searchsorted(a, [lo, hi]))]` is the block of entries with `lo <= a[i] < hi` |
| Orchestration.TrimReversedIsEmpty | viper.py:111 | A reversed bound pair keeps nothing |
| Orchestration.KnotWindow | viper.py:81-83 | The kept knots lie in `[ln lmin + 100/c, ln lmax − 100/c)`, and every knot of the full grid in that window is kept |
| Orchestration.ObservationBounds | viper.py:111 | The observation slice needs a non-empty knot grid and stays inside the observation |
| Orchestration.ObservationInsideKnots | viper.py:111 | Kept pixels lie at least 100 km/s inside the knot grid at each end |
| Orchestration.LinearGuess | viper.py:108 | The initial wavelength solution is `[w[0], (w[-1]-w[0])/n]`; it needs a non-empty spectrum |
| Orchestration.LinearGuessEndpoints | viper.py:108 | It hits `w[0]` at pixel 0 and `w[-1]` at pixel `n` |
| Orchestration.DefaultStart | viper.py:133-134 | With no `p0`, the continuum fit starts from ones |
| Orchestration.BindVab | viper.py:154 | `S_vab` takes exactly six parameters: `v`, the single continuum coefficient `a`, then `b0..b3`, with the IP width fixed at 2.2 |
| Orchestration.BindVabs | viper.py:166 | `S_vabs` takes exactly seven parameters: `v`, `a`, `b0..b3`, then the IP width `s` |
| Orchestration.BindFull | viper.py:172 | The full model takes exactly ten parameters: `v`, `a0..a3`, `b0..b3`, then `s` |
| Orchestration.Stage3Guess | viper.py:155 | The joint fit starts from `[v, 1, *bg]` |
| Orchestration.Stage3StartsFromPolyfit | viper.py:140-155 | It starts at `v0 = -2`, unit continuum and the polyfit wavelength solution |
| Orchestration.Stage4Guess | viper.py:162 | The re-fit keeps the fitted wavelength solution `p_vab[2:6]` behind `[v, 1]` |
| Orchestration.Stage4Pixels | viper.py:158 | Stages 4 to 6 use pixels 400..1699 |
| Orchestration.Stage4KeepsWavelengthSolution | viper.py:161-162 | The re-fit resets `v` and `a` but keeps the stage-3 wavelength solution |
| Orchestration.Stage5Guess | viper.py:167 | The width fit appends 2.2 to the stage-4 result |
| Orchestration.Stage5StartsWhereStage4Ended | viper.py:166-167 | It therefore starts from the same model as the stage-4 result |
| Orchestration.Stage6Guess | viper.py:173 | The full fit inserts three zero continuum coefficients after `v, a0` |
| Orchestration.Stage6StartsWhereStage5Ended | viper.py:172-173 | The full fit starts with the same `v`, `b` and `s`, and a continuum with equal values everywhere |
| Orchestration.Selected | viper.py:187-188 | `rv[isfinite(e_rv)]`: one order is kept exactly when its error is finite; every order with a finite error has its RV kept, and every kept RV comes from such an order |
| Orchestration.SelectedAppend | viper.py:187-188 | Selecting from a concatenation is concatenating the selections, so the result is the finite-error RVs in order |
| Orchestration.SelectedIgnoresUnusable | viper.py:187-188 | RVs of orders with non-finite errors do not affect the selection |
| Orchestration.SelectedAllWhenFinite | viper.py:187-188 | With all errors finite, every order is kept |
| Orchestration.Aggregate | viper.py:187-189 | RV × count is the sum of the selected RVs, and e_RV² × (count − 1) × count is the sum of their squared deviations from RV; no usable order gives NaN for both, one gives a NaN error (0/0), a non-finite selected RV gives NaN |
| Orchestration.SquaredError | viper.py:189 | `std(x)² / (count − 1)` for two or more values is non-negative, and (count − 1) × count times it is the sum of squared deviations from the mean |
| Orchestration.AggregateOfSelection | viper.py:187-189 | Aggregating the selected RVs again, with finite errors, gives the same result |
| Orchestration.NonNegativeVariance | viper.py:189 | The population variance is non-negative |
| Orchestration.AggregateIgnoresUnusable | viper.py:187-189 | The aggregate does not depend on RVs of orders with non-finite errors |
| Orchestration.AggregateOfAgreeingOrders | viper.py:188-189 | Orders that agree give that RV, and with two or more of them a zero error |
| Orchestration.TwoOrders | viper.py:187-189 | For two usable orders, the RV is their average and the squared error is `(r1 − r2)²/4` |
| Orchestration.Interleave | viper.py:194 | `sum(zip(rv, e_rv), ())` puts `rv[i]` at `2i` and `e_rv[i]` at `2i+1` |
| Orchestration.DeinterleaveRoundTrip | viper.py:194 | Even and odd positions give back `rv` and `e_rv` |
| Orchestration.OutputRow | viper.py:194 | The row is `bjd, RV, e_RV`, then per order RV and error |
| Orchestration.OutputRowParses | viper.py:194 | Reading the row back from position 3 gives back the per-order RVs and errors |

Where the documentation and the code differ, the model follows the code:

- Stage 3 starts from the polynomial fit `bg`, not from the stage-2 result
  (viper.py:155).
- Stage 4 resets `v` to `v0` and the continuum to 1, keeping only the
  wavelength solution (viper.py:162).
- Stages 4 to 6 use the fixed pixel range 400..1699 rather than the trimmed
  range (viper.py:158).
- With one usable order the combined error is NaN.
- With `IP_hs = 0` the constructor's effective grid is empty (model.py:113);
  see "Findings".
- A kernel whose sum is 0 (model.py:15, 58, 77) or a spline centroid over a
  zero amplitude sum (model.py:71) is not detected: numpy divides and the
  kernel is NaN or infinite. The `AsWritten` members model that, and the
  rest of the model uses the corrected members that report the failure; see
  "Findings".

## Left out

- `IP`, `IP_sg`, `IP_ag`, `IP_bg`: the Gaussian shapes need `exp`, `erf` and
  real powers. Only their normalisation step and the kernel algebra built on
  it are modelled.
- Kernels.McgKernel: the two Gaussians are taken as given sequences, so the
  widths `s0` and `4·s0` are not modelled.
- Kernels.KnotPositions: the `tanh` squashing of the amplitudes is not
  modelled. It only bounds them to (−1, 1).
- Forward.AbsorberProduct: `flux ** |coeff|` is a parameter `pow`, because
  real powers are transcendental.
- `np.interp`, and with it the resampling to pixels, the telluric wavelength
  shift and the trace `jx` in `model_bnd.base`: they are linear interpolation
  over floating point. `Band.BandInGridFromTrace` takes the trace value as
  input.
- `np.log` of the wavelength solution and the template Doppler factor: these
  are transcendental. The stellar template `S_star` is a given sequence.
- The Gaussian bases `BBxjl` in `model_bnd`: they are transcendental and are
  input to `Band.PixelDesign` and `Band.DesignTable`. `IPxj` is left out for
  the same reason.
- `curve_fit` and `np.linalg.lstsq`: the solvers are external. The model
  covers what goes into them and what is read back.
- `model.show`, `show_model`, the plotting, and the `pause()` calls: display
  only.
- `func_norm=pade`: `model.__call__` passes two arguments to `func_norm`, and
  `pade` needs three, so that combination is not callable as written. `pade`
  is modelled on its own.
- `model.fit` when `rv` is both free and fixed, or neither: the argument
  binding then shifts. Parameters.RvArgument states only the two
  well-formed cases.
- The `'bnd'` entry of `IPs`: it is a placeholder string, not a kernel.
- FITS and CPL input and output: header deletion, table loading, the
  `EXPTIME` and `DATANCOM2` cards, `convert_output.py`, and the `tmp.rvo.dat`
  write. These are I/O. Header cards are modelled as `Option` fields.
- The blaze file `blaze_own.fits`: reading it is I/O, so Crires.ReadChunk
  takes the blaze column as a parameter.
- Crires.ReadChunk: requires the blaze column to be as long as the spectrum
  when it is applied. numpy's broadcasting of a length-1 blaze and its
  ValueError for other mismatched lengths are not modelled.
- The own wavelength solution behind `if 0:`: it is dead code.
- The barycentric correction, BJD, `Time` and `SkyCoord`: these are
  astronomy libraries and the clock.
- `os.path.split` of the RAW file names: the names are given already
  stripped.
- Decimal.ParseInt: `int()`'s handling of whitespace, underscores and a sign
  on a zero-padded string is not modelled. Only digit strings and `str(i)`
  are.
- Orchestration.Aggregate: `e_RV` is modelled as its square (the population
  variance over `n − 1`), because `sqrt` is transcendental.
- Orchestration.Aggregate: a selected RV that is infinite is treated like NaN
  (both results NaN). IEEE arithmetic would give ±inf for the mean.
- Orchestration.AggregateOfAgreeingOrders: only "agreeing orders give zero
  error" is stated. The converse is not.
- viper.py's `Spectrum`/`Tpl` imports from the TLS instrument and its
  keyword mismatch: these are outside this model's instrument.
- Orchestration.BindVab, Orchestration.BindVabs, Orchestration.BindFull:
  these model only how each `curve_fit` wrapper lambda lays out its
  parameters. The calls they stand for do not run against model.py as it
  is: `model(S_star, xj, iod_j, IP)` (viper.py:92) passes four arguments
  where `model.__init__` unpacks five (model.py:108), and
  `S_mod(x, v, a, b, s)` (viper.py:133-172) omits `coeff_atm`, which
  `model.__call__` requires (model.py:117), and passes the IP width as a
  number where `coeff_ip` is unpacked as a sequence.
- Polynomials.Pade: a pole is reported as `None`, while numpy returns an
  infinity or NaN with only a warning. Polynomials.PadeAsWritten gives that
  value; nothing in viper.py calls `pade`, so this is not a finding.
- Rounding of IEEE doubles: all arithmetic is exact, and `Float` only
  distinguishes finite values, infinities and NaN. It has no signed zero:
  a zero divisor is taken as `+0.0`, so Values.Divide and
  Values.DivideFloats give `+inf` for `1.0 / -0.0`, where numpy gives
  `-inf`.

## Findings

| source | as written | input that shows it | evidently intended | confidence | as-written member | corrected member |
|---|---|---|---|---|---|---|
| model.py:113 | `lnwave_j[IP_hs:-IP_hs]` is empty when `IP_hs = 0`, because `-0 == 0` | `IP_hs = 0` with any non-empty knot grid; the valid convolution then has `n` values against an empty grid | the valid grid `lnwave_j[IP_hs:n-IP_hs]` | low, not executed | Forward.EffectiveGridAsWritten and Forward.SetupGrid (Forward.EffectiveGridAsWrittenEmptyAtZero) | Forward.EffectiveGrid (Forward.ConvolutionFitsEffectiveGrid) |
| model.py:58 | `IP_k /= IP_k.sum()` (here and at model.py:15, 21, 39, 48, 77) and `np.dot(xl, a) / sum(a)` (model.py:71) divide without checking for a zero sum, so the kernel (or the spline centroid) silently becomes NaN or infinite and flows into the convolution at model.py:134 | `IP_mcg` with `a1 = −10`: the background Gaussian cancels the main one at the centre and outweighs it elsewhere, so the clipped profile is all zeros; `IP_mg` with both free amplitudes at `atanh(−1/2)`: the amplitudes `[−1/2, 1, −1/2]` sum to 0 | a zero kernel sum is detected and reported as a failed evaluation | low, not executed | Kernels.NormaliseAsWritten, Kernels.McgKernelAsWritten, Kernels.KnotCentroidAsWritten (Kernels.NormaliseAsWrittenAgrees, Kernels.McgKernelNaNAtMinusTen, Kernels.KnotCentroidNaNExample) | Kernels.Normalise, Kernels.ClipNormalise, Kernels.McgKernel, Kernels.KnotCentroid (Kernels.KnotPositions) |
| model.py:134 | `fit` defaults to `par_bkg = []` and `parfix_bkg = []`, so `S_model` passes an empty `coeff_bkg` and `coeff_bkg[0]` raises IndexError | any `fit` call that gives neither `par_bkg` nor `parfix_bkg` | an empty background group falls back to `__call__`'s default `[0]` | medium, not executed | Forward.FitWithoutBackgroundFails (with Parameters.EvaluatorArguments and Forward.Illuminate) | Forward.BackgroundArgument (Forward.FitWithoutBackgroundIsNeutral) |

=== FILE: band.dfy ===
/**
 The band-limited variant of the forward model (model.py, class
 `model_bnd`): for each pixel a band of 2h+1 consecutive knot indices, a
 polynomial design row in pixel space, and the per-pixel design matrix of
 (continuum degree, basis offset) pairs that is flattened for the linear
 solve. The Gaussian basis values, the trace interpolation and the
 least-squares solve are not modelled; they enter as sequences.
 */
module Band {
  import opened Values
  import opened Sums
  import opened Polynomials

  /** Relative positions of the basis Gaussians; model_bnd.base assigns
      [-1, 0, 1] first and then overwrites it with these five. */
  const BasisOffsets: seq<real> := [-1.4, -0.7, 0.0, 0.7, 1.4]

  /** Default number of continuum coefficients (degk) */
  const DefaultDegree: nat := 3

  /** numpy's astype(int): truncation toward zero */
  function TruncateToInt(r: real): (i: int)
    ensures r >= 0.0 ==> i as real <= r < i as real + 1.0
    ensures r < 0.0 ==> i as real - 1.0 < r <= i as real
  {
    if r >= 0.0 then r.Floor else -((-r).Floor)
  }

  /** One row of `bnd`: int(jx) - h, ..., int(jx) + h */
  function BandRow(jx: real, h: nat): (row: seq<int>)
    ensures |row| == 2 * h + 1
  {
    seq(2 * h + 1, k => TruncateToInt(jx) - h + k)
  }

  /** The row is 2h+1 consecutive knot indices centred on int(jx). */
  lemma BandRowShape(jx: real, h: nat)
    ensures var row := BandRow(jx, h);
      && row[h] == TruncateToInt(jx)
      && row[0] == TruncateToInt(jx) - h
      && row[2 * h] == TruncateToInt(jx) + h
      && (forall k :: 0 <= k < 2 * h ==> row[k + 1] == row[k] + 1)
  {
  }

  /** `bnd`: one row per pixel */
  function BandTable(jxs: seq<real>, h: nat): (bnd: seq<seq<int>>)
    ensures |bnd| == |jxs|
    ensures forall x :: 0 <= x < |jxs| ==> bnd[x] == BandRow(jxs[x], h)
  {
    seq(|jxs|, x requires 0 <= x < |jxs| => BandRow(jxs[x], h))
  }

  /** A row indexes only knots of a grid of n knots exactly when its centre
      lies at least h knots from both ends; otherwise it holds a negative
      index or one past the grid. */
  lemma BandRowInGrid(jx: real, h: nat, n: nat)
    ensures (forall k :: 0 <= k < 2 * h + 1 ==> 0 <= BandRow(jx, h)[k] < n)
        <==> (h <= TruncateToInt(jx) && TruncateToInt(jx) + h < n)
  {
    var row := BandRow(jx, h);
    assert row[0] == TruncateToInt(jx) - h;
    assert row[2 * h] == TruncateToInt(jx) + h;
  }

  /** A trace position at least h knots from the lower end and below n - h
      keeps the whole band inside the grid. */
  lemma BandInGridFromTrace(jx: real, h: nat, n: nat)
    requires h as real <= jx && jx + h as real < n as real
    ensures forall k :: 0 <= k < 2 * h + 1 ==> 0 <= BandRow(jx, h)[k] < n
  {
    BandRowInGrid(jx, h, n);
  }

  /** One row of `Bxk = vander(x - x.mean(), degk)[:, ::-1]`: ascending
      powers of the centred pixel. */
  function DesignRow(t: real, degk: nat): (row: seq<real>)
    ensures |row| == degk
  {
    Powers(t, degk)
  }

  /** A design row dotted with continuum coefficients is the ascending
      polynomial of those coefficients at the centred pixel. */
  lemma DesignRowEvaluatesPoly(t: real, a: seq<real>)
    ensures Dot(a, DesignRow(t, |a|)) == Poly(t, a)
  {
    PolyIsPowerSum(t, a);
  }

  /** `Bxk = vander(x - x.mean(), degk)[:, ::-1]`: the design row of each
      pixel, centred on the mean pixel. An empty pixel list gives an empty
      matrix. */
  function DesignMatrix(xs: seq<real>, degk: nat): (bxk: seq<seq<real>>)
    ensures |bxk| == |xs|
    ensures |xs| > 0 ==> forall i :: 0 <= i < |xs| ==> bxk[i] == DesignRow(xs[i] - Mean(xs), degk)
  {
    if |xs| == 0 then []
    else
      var m := Mean(xs);
      seq(|xs|, i requires 0 <= i < |xs| => DesignRow(xs[i] - m, degk))
  }

  /** The centring: the linear column of the design matrix sums to zero,
      and the constant column is all ones. */
  lemma DesignMatrixCentred(xs: seq<real>, degk: nat)
    requires |xs| > 0 && degk >= 2
    ensures var bxk := DesignMatrix(xs, degk);
      && (forall i :: 0 <= i < |xs| ==> |bxk[i]| == degk && bxk[i][0] == 1.0)
      && Sum(seq(|xs|, i requires 0 <= i < |xs| => bxk[i][1])) == 0.0
  {
    var bxk := DesignMatrix(xs, degk);
    var m := Mean(xs);
    var col := seq(|xs|, i requires 0 <= i < |xs| => bxk[i][1]);
    var shifted := seq(|xs|, i requires 0 <= i < |xs| => xs[i] - m);
    forall i | 0 <= i < |xs|
      ensures bxk[i][0] == 1.0 && col[i] == shifted[i]
    {
      LowPowers(xs[i] - m, degk);
    }
    assert col == shifted;
    SumShift(xs, m);
  }

  /** The first two columns of a design row are 1 and t. */
  lemma LowPowers(t: real, degk: nat)
    requires degk >= 2
    ensures DesignRow(t, degk)[0] == 1.0 && DesignRow(t, degk)[1] == t
  {
    assert Power(t, 1) == t * Power(t, 0);
  }


  predicate IsMatrix(m: seq<seq<real>>, rows: nat, cols: nat) {
    |m| == rows && forall i :: 0 <= i < rows ==> |m[i]| == cols
  }

  /** The band-weighted response of each basis Gaussian at one pixel:
      sum over the band of (star * cell)[j] * B[j][l]. */
  function Response(s: seq<real>, b: seq<seq<real>>, nl: nat): (r: seq<real>)
    requires IsMatrix(b, |s|, nl)
    ensures |r| == nl
  {
    seq(nl, l requires 0 <= l < nl => Sum(seq(|s|, j requires 0 <= j < |s| => s[j] * b[j][l])))
  }

  /** One pixel of `einsum('xj,xjl,xk->xkl')`: entry [k][l] is the sum over
      the band of s[j] * b[j][l] * p[k]. */
  function PixelDesign(s: seq<real>, b: seq<seq<real>>, p: seq<real>, nl: nat): (a: seq<seq<real>>)
    requires IsMatrix(b, |s|, nl)
    ensures IsMatrix(a, |p|, nl)
  {
    seq(|p|, k requires 0 <= k < |p| =>
      seq(nl, l requires 0 <= l < nl => Sum(seq(|s|, j requires 0 <= j < |s| => s[j] * b[j][l] * p[k]))))
  }

  /** Each pixel's design matrix is the outer product of its polynomial
      row and its basis response. */
  lemma PixelDesignFactors(s: seq<real>, b: seq<seq<real>>, p: seq<real>, nl: nat, k: nat, l: nat)
    requires IsMatrix(b, |s|, nl)
    requires k < |p| && l < nl
    ensures PixelDesign(s, b, p, nl)[k][l] == p[k] * Response(s, b, nl)[l]
  {
    var u := seq(|s|, j requires 0 <= j < |s| => s[j] * b[j][l]);
    var w := seq(|u|, j requires 0 <= j < |u| => p[k] * u[j]);
    var v := seq(|s|, j requires 0 <= j < |s| => s[j] * b[j][l] * p[k]);
    SumScale(u, p[k]);
    assert forall j :: 0 <= j < |s| ==> w[j] == v[j];
    assert w == v;
    assert PixelDesign(s, b, p, nl)[k][l] == Sum(v);
  }

  /** numpy's integer index into an array of n entries: a negative index
      counts from the end, and anything outside [-n, n) is an IndexError. */
  function PyIndex(n: nat, i: int): (r: Option<nat>)
    ensures r.Some? <==> -(n as int) <= i < n
    ensures r.Some? ==> r.value < n
    ensures 0 <= i < n ==> r == Some(i as nat)
    ensures -(n as int) <= i < 0 ==> r == Some((n + i) as nat)
  {
    if i < -(n as int) || i >= n then None
    else if i < 0 then Some((n + i) as nat)
    else Some(i as nat)
  }

  predicate RowIndexable(n: nat, row: seq<int>) {
    forall k :: 0 <= k < |row| ==> PyIndex(n, row[k]).Some?
  }

  /** `s[row]`: the entries a band row points at, or an IndexError. */
  function GatherRow(s: seq<real>, row: seq<int>): (g: Option<seq<real>>)
    ensures g.Some? <==> forall k :: 0 <= k < |row| ==> -(|s| as int) <= row[k] < |s|
    ensures g.Some? ==> |g.value| == |row|
  {
    if RowIndexable(|s|, row) then Some(seq(|row|, k requires 0 <= k < |row| => s[PyIndex(|s|, row[k]).value]))
    else None
  }

  /** `(starj*spec_cell_j)[self.bnd]`: one gathered band per pixel; a
      single index outside [-n, n) fails the whole table. */
  function Gather(s: seq<real>, bnd: seq<seq<int>>): (g: Option<seq<seq<real>>>)
    ensures g.Some? <==> forall x :: 0 <= x < |bnd| ==> GatherRow(s, bnd[x]).Some?
    ensures g.Some? ==> |g.value| == |bnd| && forall x :: 0 <= x < |bnd| ==> g.value[x] == GatherRow(s, bnd[x]).value
  {
    if forall x :: 0 <= x < |bnd| ==> GatherRow(s, bnd[x]).Some? then
      Some(seq(|bnd|, x requires 0 <= x < |bnd| => GatherRow(s, bnd[x]).value))
    else None
  }

  /** A band inside the grid gathers the contiguous window of 2h+1 knots
      around int(jx). */
  lemma GatherInGrid(s: seq<real>, jx: real, h: nat)
    requires h <= TruncateToInt(jx) && TruncateToInt(jx) + h < |s|
    ensures GatherRow(s, BandRow(jx, h)) == Some(s[TruncateToInt(jx) - h..TruncateToInt(jx) + h + 1])
  {
    var row := BandRow(jx, h);
    BandRowInGrid(jx, h, |s|);
    var g := GatherRow(s, row).value;
    var w := s[TruncateToInt(jx) - h..TruncateToInt(jx) + h + 1];
    assert |w| == |row|;
    forall k | 0 <= k < |row|
      ensures g[k] == w[k]
    {
      var i := TruncateToInt(jx) - h + k;
      assert row[k] == i && 0 <= i < |s|;
      assert PyIndex(|s|, i) == Some(i as nat);
      assert w[k] == s[i];
    }
    assert g == w;
  }

  /** A band that starts below knot 0 but no further than n knots down
      raises nothing: numpy wraps the negative indices to the far end of
      the grid, so the first gathered value is s[n + int(jx) - h]. */
  lemma GatherWrapsBelow(s: seq<real>, jx: real, h: nat)
    requires -(|s| as int) <= TruncateToInt(jx) - h < 0 && TruncateToInt(jx) + h < |s|
    ensures GatherRow(s, BandRow(jx, h)).Some?
    ensures GatherRow(s, BandRow(jx, h)).value[0] == s[|s| + TruncateToInt(jx) - h]
  {
    var row := BandRow(jx, h);
    assert row[0] == TruncateToInt(jx) - h;
  }

  /** A band that reaches past the last knot is an IndexError. */
  lemma GatherFailsAbove(s: seq<real>, jx: real, h: nat)
    requires TruncateToInt(jx) + h >= |s|
    ensures GatherRow(s, BandRow(jx, h)).None?
  {
    var row := BandRow(jx, h);
    assert row[2 * h] == TruncateToInt(jx) + h;
  }

  /** `Axkl.reshape((len(Axkl), -1))` on one pixel: row-major flattening of
      a K x L matrix into K * L columns. */
  function FlattenRow(a: seq<seq<real>>, nl: nat): (row: seq<real>)
    requires IsMatrix(a, |a|, nl)
    ensures |row| == |a| * nl
    decreases |a|
  {
    if |a| == 0 then [] else a[0] + FlattenRow(a[1..], nl)
  }

  /** Column c of the flattened row is entry (c / L, c % L): one coefficient
      per (continuum degree, basis offset) pair, degree-major. */
  lemma {:induction false} FlattenRowIndex(a: seq<seq<real>>, nl: nat, c: nat)
    requires IsMatrix(a, |a|, nl) && c < |a| * nl
    ensures nl > 0 && c / nl < |a|
    ensures FlattenRow(a, nl)[c] == a[c / nl][c % nl]
    decreases |a|
  {
    assert nl > 0;
    var row := FlattenRow(a, nl);
    assert row == a[0] + FlattenRow(a[1..], nl);
    if c >= nl {
      assert c - nl < (|a| - 1) * nl;
      FlattenRowIndex(a[1..], nl, c - nl);
      DivShift(c, nl);
      assert row[c] == FlattenRow(a[1..], nl)[c - nl];
    } else {
      DivSmall(c, nl);
    }
  }

  lemma DivShift(c: nat, n: nat)
    requires 0 < n <= c
    ensures (c - n) / n == c / n - 1 && (c - n) % n == c % n
  {
    var q, r := c / n, c % n;
    assert c == q * n + r;
    assert c - n == (q - 1) * n + r;
    DivModUnique(c - n, n, q - 1, r);
  }

  lemma DivModUnique(x: int, n: int, q: int, r: int)
    requires n > 0 && 0 <= r < n && x == q * n + r
    ensures x / n == q && x % n == r
  {
    var q', r' := x / n, x % n;
    assert x == q' * n + r';
    MulDistributes(q, q', n);
    if q > q' {
      MulAtLeast(q - q', n);
    } else if q < q' {
      MulAtLeast(q' - q, n);
      MulDistributes(q', q, n);
    }
  }

  lemma MulDistributes(a: int, b: int, n: int)
    ensures (a - b) * n == a * n - b * n
  {
  }

  lemma MulAtLeast(d: int, n: int)
    requires d >= 1 && n > 0
    ensures d * n >= n
  {
  }

  lemma DivSmall(c: nat, n: nat)
    requires c < n
    ensures c / n == 0 && c % n == c
  {
  }

  /** `Axkl.reshape((len(Axkl), -1))` for all pixels: pixel x's gathered
      band sg[x], Gaussian bases bb[x] and design row bxk[x] make one row of
      degk * nl columns. */
  function DesignTable(sg: seq<seq<real>>, bb: seq<seq<seq<real>>>, bxk: seq<seq<real>>, nl: nat): (a: seq<seq<real>>)
    requires |sg| == |bb| == |bxk|
    requires forall x :: 0 <= x < |sg| ==> IsMatrix(bb[x], |sg[x]|, nl)
    ensures |a| == |sg|
    ensures forall x :: 0 <= x < |sg| ==> |a[x]| == |bxk[x]| * nl
  {
    seq(|sg|, x requires 0 <= x < |sg| => FlattenRow(PixelDesign(sg[x], bb[x], bxk[x], nl), nl))
  }

  /** Column k * nl + l of pixel x's row is the design value bxk[x][k]
      times that pixel's response to Gaussian l. */
  lemma DesignTableEntry(sg: seq<seq<real>>, bb: seq<seq<seq<real>>>, bxk: seq<seq<real>>, nl: nat, x: nat, k: nat, l: nat)
    requires |sg| == |bb| == |bxk|
    requires forall y :: 0 <= y < |sg| ==> IsMatrix(bb[y], |sg[y]|, nl)
    requires x < |sg| && k < |bxk[x]| && l < nl
    ensures k * nl + l < |DesignTable(sg, bb, bxk, nl)[x]|
    ensures DesignTable(sg, bb, bxk, nl)[x][k * nl + l] == bxk[x][k] * Response(sg[x], bb[x], nl)[l]
  {
    var m := PixelDesign(sg[x], bb[x], bxk[x], nl);
    var c := k * nl + l;
    MulAtMost(k, |bxk[x]|, nl, l);
    FlattenRowIndex(m, nl, c);
    DivModUnique(c, nl, k, l);
    PixelDesignFactors(sg[x], bb[x], bxk[x], nl, k, l);
  }

  lemma MulAtMost(k: nat, n: nat, nl: nat, l: nat)
    requires k < n && l < nl
    ensures k * nl + l < n * nl
  {
    assert (k + 1) * nl <= n * nl;
  }

  /** With the default degree the linear solve has 3 * 5 = 15 unknowns. */
  lemma DefaultColumnCount(a: seq<seq<real>>)
    requires IsMatrix(a, DefaultDegree, |BasisOffsets|)
    ensures |FlattenRow(a, |BasisOffsets|)| == 15
  {
  }
}

=== FILE: crires.dfy ===
/**
 The CRIRES+ instrument layer (inst/inst_CRIRES.py): the mapping between
 viper's linear order number and the (DRS order, detector) pair, the
 binary-table column names built from it and parsed back, the pixel and
 bad-pixel arrays, the exposure-time rule, the numbering of raw-file
 header cards, and the fill rule for orders a template run did not process.
 FITS/CPL reading and writing themselves are not modelled.
 */
module Crires {
  import opened Values
  import opened Decimal
  import opened Slices

  /** The highest DRS order number; linear orders count down from it. */
  const TopDrsOrder: int := 7

  /** Detectors per DRS order */
  const Detectors: int := 3

  /** `oset = '1:19'`: the linear orders 1 .. 18 */
  const FirstOrder: int := 1
  const LastOrder: int := 18

  /** Rows of a CRIRES+ extracted table, and so of a filled column */
  const FillLength: nat := 2048

  /** A DRS order on one detector */
  datatype OrderId = OrderId(drs: int, detector: int)

  /** `(7 - odrs) * 3 + detector` of write_fits: for a detector in 1..3,
      `divmod(order - 1, 3)` of the result is (7 - odrs, detector - 1). */
  function LinearOrder(drs: int, detector: int): (o: int)
    ensures 1 <= detector <= Detectors ==> (o - 1) / Detectors == TopDrsOrder - drs && (o - 1) % Detectors == detector - 1
  {
    (TopDrsOrder - drs) * Detectors + detector
  }

  /** `divmod(order - 1, 3)` then `7 - q` and `r + 1` (Python's divmod
      floors, which for the positive divisor 3 is Dafny's division). Every
      linear order is recovered from its pair. */
  function OrderToDrs(order: int): (r: OrderId)
    ensures 1 <= r.detector <= Detectors
    ensures LinearOrder(r.drs, r.detector) == order
  {
    OrderId(TopDrsOrder - (order - 1) / Detectors, (order - 1) % Detectors + 1)
  }

  /** The other direction: a pair with a detector in 1..3 is recovered from
      its linear order. */
  lemma DrsToOrderRoundTrip(drs: int, detector: int)
    requires 1 <= detector <= Detectors
    ensures OrderToDrs(LinearOrder(drs, detector)) == OrderId(drs, detector)
  {
    var o := LinearOrder(drs, detector);
    assert o - 1 == (TopDrsOrder - drs) * Detectors + (detector - 1);
  }

  /** The orders of `oset` lie on DRS orders 2 .. 7, three per DRS order. */
  lemma OrderSetRange(order: int)
    requires FirstOrder <= order <= LastOrder
    ensures 2 <= OrderToDrs(order).drs <= TopDrsOrder
  {
  }

  datatype ColumnKind = Wavelength | Flux | Error

  function Suffix(kind: ColumnKind): string {
    match kind
    case Wavelength => "WL"
    case Flux => "SPEC"
    case Error => "ERR"
  }

  /** `"0" + str(order_drs) + "_01_" + suffix`: its first `_`-separated
      field is the zero-padded order, and it ends in the kind's suffix. */
  function ColumnName(drs: int, kind: ColumnKind): (name: string)
    ensures FirstField(name) == "0" + IntToString(drs)
    ensures |name| >= |Suffix(kind)| && name[|name| - |Suffix(kind)|..] == Suffix(kind)
  {
    var p := "0" + IntToString(drs);
    PaddedOrderHasNoUnderscore(drs);
    FirstFieldOfJoin(p, "01_" + Suffix(kind));
    assert p + "_01_" + Suffix(kind) == p + "_" + ("01_" + Suffix(kind));
    p + "_01_" + Suffix(kind)
  }

  /** `s.split('_')[0]`: everything before the first underscore */
  function FirstField(s: string): (f: string)
    ensures |f| <= |s| && f == s[..|f|]
    ensures forall i :: 0 <= i < |f| ==> f[i] != '_'
    ensures |f| < |s| ==> s[|f|] == '_'
  {
    if |s| == 0 || s[0] == '_' then "" else [s[0]] + FirstField(s[1..])
  }

  /** `int(cc.split('_')[0])`: the DRS order a column belongs to. A name
      without an underscore is parsed whole; one that starts with an
      underscore has an empty first field and does not parse. */
  function ColumnOrder(name: string): (o: Option<int>)
    ensures (forall i :: 0 <= i < |name| ==> name[i] != '_') ==> o == ParseInt(name)
    ensures |name| == 0 || name[0] == '_' ==> o.None?
  {
    var f := FirstField(name);
    assert name[..|name|] == name;
    ParseInt(f)
  }

  lemma {:induction false} FirstFieldOfJoin(p: string, rest: string)
    requires forall i :: 0 <= i < |p| ==> p[i] != '_'
    ensures FirstField(p + "_" + rest) == p
    decreases |p|
  {
    if |p| > 0 {
      assert (p + "_" + rest)[1..] == p[1..] + "_" + rest;
      FirstFieldOfJoin(p[1..], rest);
    }
  }

  /** The zero-padded DRS order text never contains an underscore. */
  lemma PaddedOrderHasNoUnderscore(drs: int)
    ensures forall i :: 0 <= i < |"0" + IntToString(drs)| ==> ("0" + IntToString(drs))[i] != '_'
  {
    var s := IntToString(drs);
    if drs < 0 {
      assert s == "-" + NatToString(-drs);
      assert forall i :: 1 <= i < |s| ==> s[i] == NatToString(-drs)[i - 1];
    }
  }

  /** Parsing a column name gives its DRS order back whenever that order is
      non-negative; a negative order ("0-1_01_SPEC") does not parse. */
  lemma ColumnNameRoundTrip(drs: int, kind: ColumnKind)
    ensures ColumnOrder(ColumnName(drs, kind)) == (if drs >= 0 then Some(drs) else None)
  {
    ZeroPaddedRoundTrip(drs);
  }

  /** Every order of `oset` survives the trip through its column names:
      order -> (DRS order, detector) -> name -> parsed DRS order -> order. */
  lemma OrderColumnRoundTrip(order: int, kind: ColumnKind)
    requires FirstOrder <= order <= LastOrder
    ensures var id := OrderToDrs(order);
      && ColumnOrder(ColumnName(id.drs, kind)) == Some(id.drs)
      && LinearOrder(ColumnOrder(ColumnName(id.drs, kind)).value, id.detector) == order
  {
    ColumnNameRoundTrip(OrderToDrs(order).drs, kind);
  }

  /** The WL, SPEC and ERR names of one DRS order share everything but the
      suffix, and distinct (order, kind) pairs get distinct names. */
  lemma ColumnNamesDistinct(d1: int, k1: ColumnKind, d2: int, k2: ColumnKind)
    requires d1 >= 0 && d2 >= 0
    ensures ColumnName(d1, k1) == ColumnName(d2, k2) <==> d1 == d2 && k1 == k2
  {
    if ColumnName(d1, k1) == ColumnName(d2, k2) {
      ColumnNameRoundTrip(d1, k1);
      ColumnNameRoundTrip(d2, k2);
      var p := "0" + IntToString(d1) + "_01_";
      assert ColumnName(d1, k1) == p + Suffix(k1);
      assert ColumnName(d2, k2) == p + Suffix(k2);
      assert Suffix(k1) == ColumnName(d1, k1)[|p|..];
    }
  }

  /** A detector table: three columns per DRS order, in any order of kinds
      within each group of three. */
  function TableColumns(drsOrders: seq<int>, kinds: seq<ColumnKind>): (cols: seq<string>)
    requires |kinds| == 3 * |drsOrders|
    ensures |cols| == |kinds|
  {
    seq(|kinds|, i requires 0 <= i < |kinds| => ColumnName(drsOrders[i / 3], kinds[i]))
  }

  /** `cols[::3]` */
  function EveryThird<T>(s: seq<T>): (r: seq<T>)
    ensures |r| == (|s| + 2) / 3
    ensures forall i :: 0 <= i < |r| ==> r[i] == s[3 * i]
  {
    seq((|s| + 2) / 3, i requires 0 <= i < (|s| + 2) / 3 => s[3 * i])
  }

  /** Walking `cols[::3]` and parsing each name visits every DRS order of
      the table once, in table order. */
  lemma EveryThirdVisitsEachOrder(drsOrders: seq<int>, kinds: seq<ColumnKind>)
    requires |kinds| == 3 * |drsOrders|
    requires forall i :: 0 <= i < |drsOrders| ==> drsOrders[i] >= 0
    ensures |EveryThird(TableColumns(drsOrders, kinds))| == |drsOrders|
    ensures forall i :: 0 <= i < |drsOrders| ==> ColumnOrder(EveryThird(TableColumns(drsOrders, kinds))[i]) == Some(drsOrders[i])
  {
    var cols := TableColumns(drsOrders, kinds);
    forall i | 0 <= i < |drsOrders|
      ensures ColumnOrder(EveryThird(cols)[i]) == Some(drsOrders[i])
    {
      assert 3 * i / 3 == i;
      ColumnNameRoundTrip(drsOrders[i], kinds[3 * i]);
    }
  }

  /** What Spectrum returns for one order (BERV and BJD aside). */
  datatype Chunk = Chunk(pixel: seq<int>, wave: seq<Float>, spec: seq<Float>, err: seq<Float>, flags: seq<int>)

  predicate ChunkWellFormed(c: Chunk) {
    && |c.wave| == |c.pixel| && |c.spec| == |c.pixel| && |c.err| == |c.pixel| && |c.flags| == |c.pixel|
  }

  /** `flag_pixel = 1 * np.isnan(spec)` */
  function FlagPixels(spec: seq<Float>): (flags: seq<int>)
    ensures |flags| == |spec|
    ensures forall i :: 0 <= i < |spec| ==> flags[i] == 0 || flags[i] == 1
    ensures forall i :: 0 <= i < |spec| ==> (flags[i] == 1 <==> spec[i].IsNaN())
  {
    seq(|spec|, i requires 0 <= i < |spec| => if spec[i].IsNaN() then 1 else 0)
  }

  /** Wavelengths in the tables are in nm; viper works in Angstrom. */
  function ToAngstrom(wl: seq<Float>): (r: seq<Float>)
    ensures |r| == |wl|
    ensures forall i :: 0 <= i < |wl| ==> r[i] == ScaleBy(wl[i], 10.0)
  {
    seq(|wl|, i requires 0 <= i < |wl| => ScaleBy(wl[i], 10.0))
  }

  /** The calibration category that marks a frame as already blaze
      corrected by the DRS pipeline. */
  const FlatCategory: string := "CAL_FLAT_EXTRACT_1D"

  /** Python's `t in s` for strings: t occurs in s as a contiguous run. */
  predicate Contains(s: string, t: string) {
    exists i :: 0 <= i <= |s| - |t| && OccursAt(s, t, i)
  }

  predicate OccursAt(s: string, t: string, i: int) {
    0 <= i && i + |t| <= |s| && s[i..i + |t|] == t
  }

  /** Spectrum's array part: pixel numbers 0 .. n-1, wavelengths times 10,
      error as stored, and flux divided by the blaze unless the calibration
      string says the frame is already blaze corrected. The flags mark NaN
      in the flux after that division. The blaze column, read from a
      separate file, is a parameter; the columns of one table and the blaze
      share their length. */
  function ReadChunk(wl: seq<Float>, spec: seq<Float>, err: seq<Float>, cal: string, blaze: seq<Float>): (c: Chunk)
    requires |wl| == |spec| == |err|
    requires !Contains(cal, FlatCategory) ==> |blaze| == |spec|
    ensures ChunkWellFormed(c) && |c.pixel| == |spec|
    ensures forall i :: 0 <= i < |spec| ==> c.pixel[i] == i
    ensures forall i :: 0 <= i < |spec| ==> (c.flags[i] == 1 <==> c.spec[i].IsNaN())
    ensures Contains(cal, FlatCategory) ==> c.spec == spec
    ensures !Contains(cal, FlatCategory) ==> forall i :: 0 <= i < |spec| ==> c.spec[i] == DivideFloats(spec[i], blaze[i])
    ensures c.err == err
    ensures c.wave == ToAngstrom(wl)
    ensures forall i :: 0 <= i < |wl| ==> (c.wave[i].IsFinite() <==> wl[i].IsFinite())
    ensures forall i :: 0 <= i < |wl| && wl[i].IsFinite() ==> c.wave[i].v == 10.0 * wl[i].v
  {
    var flux := if Contains(cal, FlatCategory) then spec
      else seq(|spec|, i requires 0 <= i < |spec| => DivideFloats(spec[i], blaze[i]));
    Chunk(seq(|spec|, i => i), ToAngstrom(wl), flux, err, FlagPixels(flux))
  }

  /** Which pixels end up flagged: for an already corrected frame exactly
      the NaN flux values; otherwise also those whose blaze is NaN, both
      infinite, or where flux and blaze are both 0. */
  lemma ReadChunkFlags(wl: seq<Float>, spec: seq<Float>, err: seq<Float>, cal: string, blaze: seq<Float>)
    requires |wl| == |spec| == |err|
    requires !Contains(cal, FlatCategory) ==> |blaze| == |spec|
    ensures var c := ReadChunk(wl, spec, err, cal, blaze);
      Contains(cal, FlatCategory) ==> forall i :: 0 <= i < |spec| ==> (c.flags[i] == 1 <==> spec[i].IsNaN())
    ensures var c := ReadChunk(wl, spec, err, cal, blaze);
      !Contains(cal, FlatCategory) ==> forall i :: 0 <= i < |spec| ==>
        (c.flags[i] == 1 <==>
          spec[i].IsNaN() || blaze[i].IsNaN() || (spec[i].Inf? && blaze[i].Inf?)
          || (spec[i].Finite? && blaze[i].Finite? && spec[i].v == 0.0 && blaze[i].v == 0.0))
  {
  }

  /** A finite flux over a NaN blaze pixel is flagged when the blaze is
      applied, and left unflagged for a frame already blaze corrected. */
  lemma BlazeGapIsFlagged(x: real, cal: string)
    ensures var c := ReadChunk([Finite(1.0)], [Finite(x)], [Finite(0.0)], cal, [NaN]);
      c.flags == (if Contains(cal, FlatCategory) then [0] else [1])
  {
  }

  const CombinedCategory: string := "OBS_NODDING_EXTRACT_COMB"
  const NodACategory: string := "OBS_NODDING_EXTRACTA"
  const NodBCategory: string := "OBS_NODDING_EXTRACTB"

  /** The header values the exposure-time rule reads: ESO PRO CATG,
      ESO DRS TMID, DATE-OBS, ESO DET SEQ1 DIT, ESO PRO DATANCOM,
      ESO DET NDIT. A missing card is None. */
  datatype FrameHeader = FrameHeader(category: Option<string>, tmid: Option<real>, dateObs: Option<string>,
                                     dit: Option<real>, datancom: Option<real>, ndit: Option<real>)

  /** With PyCPL a missing key is an error; the astropy reader falls back
      to NDIT = 1, DATANCOM = 1 and DIT = 0, but not for PRO CATG or
      DATE-OBS, which it reads by subscript. */
  datatype Reader = PyCpl | Astropy

  /** A combined A+B frame that carries its mid-time: the `try` branch,
      which leaves exptime at 0. */
  predicate HasMidTime(h: FrameHeader) {
    h.category == Some(CombinedCategory) && h.tmid.Some?
  }

  /** For the exposure time, the number of nods combined into one frame:
      half of DATANCOM for the single-nod A and B extractions. */
  function NodsCombined(category: string, datancom: real): real {
    if category == NodACategory || category == NodBCategory then datancom / 2.0 else datancom
  }

  /** exptime: zero for a combined frame that carries its mid-time, and
      otherwise dit * nods * ndit / 2, once DATE-OBS has been read. PRO CATG
      is read first, so without it there is no exposure time at all. */
  function ExposureTime(h: FrameHeader, reader: Reader): (t: Option<real>)
    ensures h.category.None? ==> t.None?
    ensures HasMidTime(h) ==> t == Some(0.0)
    ensures h.category.Some? && !HasMidTime(h) && h.dateObs.None? ==> t.None?
    ensures reader == Astropy ==> (t.Some? <==> h.category.Some? && (HasMidTime(h) || h.dateObs.Some?))
    ensures reader == PyCpl ==>
      (t.Some? <==> h.category.Some? && (HasMidTime(h) || (h.dateObs.Some? && h.dit.Some? && h.datancom.Some? && h.ndit.Some?)))
  {
    if h.category.None? then None
    else if HasMidTime(h) then Some(0.0)
    else if h.dateObs.None? then None
    else match reader
      case PyCpl =>
        if h.dit.Some? && h.datancom.Some? && h.ndit.Some? then
          Some(Exposure(h.dit.value, NodsCombined(h.category.value, h.datancom.value), h.ndit.value))
        else None
      case Astropy =>
        var dit := if h.dit.Some? then h.dit.value else 0.0;
        var nods := if h.datancom.Some? then h.datancom.value else 1.0;
        var ndit := if h.ndit.Some? then h.ndit.value else 1.0;
        Some(Exposure(dit, NodsCombined(h.category.value, nods), ndit))
  }

  /** `(exptime * nods * ndit) / 2.0` */
  function Exposure(dit: real, nods: real, ndit: real): real {
    dit * nods * ndit / 2.0
  }

  /** For a frame that is not a combined frame with a mid-time and whose
      header is complete, the exposure time is a quarter of
      dit * nods * ndit for a single nod position (A or B) and half of it
      otherwise, with either reader. */
  lemma ExposureTimeRule(h: FrameHeader, reader: Reader, cat: string, dit: real, nods: real, ndit: real)
    requires h.category == Some(cat) && !HasMidTime(h) && h.dateObs.Some?
    requires h.dit == Some(dit) && h.datancom == Some(nods) && h.ndit == Some(ndit)
    ensures cat == NodACategory || cat == NodBCategory ==>
      ExposureTime(h, reader) == Some(dit * nods * ndit / 4.0)
    ensures !(cat == NodACategory || cat == NodBCategory) ==>
      ExposureTime(h, reader) == Some(dit * nods * ndit / 2.0)
  {
    var t := ExposureTime(h, reader);
    assert t == Some(Exposure(dit, NodsCombined(cat, nods), ndit)) by {
      match reader {
        case PyCpl =>
        case Astropy =>
      }
    }
    if cat == NodACategory || cat == NodBCategory {
      assert NodsCombined(cat, nods) == nods / 2.0;
      HalvedNods(dit, nods, ndit);
    } else {
      assert NodsCombined(cat, nods) == nods;
      assert t == Some(Exposure(dit, nods, ndit));
      assert Exposure(dit, nods, ndit) == dit * nods * ndit / 2.0;
    }
  }

  lemma HalvedNods(dit: real, nods: real, ndit: real)
    ensures Exposure(dit, nods / 2.0, ndit) == dit * nods * ndit / 4.0
  {
  }

  /** The astropy reader's defaults: a header with no DIT gives zero. */
  lemma ExposureTimeWithoutDit(h: FrameHeader)
    requires h.category.Some? && !HasMidTime(h) && h.dateObs.Some?
    requires h.dit.None?
    ensures ExposureTime(h, Astropy) == Some(0.0)
  {
  }

  /** `'HIERARCH ESO PRO REC2 RAW' + str(k) + ' NAME'` */
  function RawKey(k: nat): string {
    "HIERARCH ESO PRO REC2 RAW" + NatToString(k) + " NAME"
  }

  /** Different numbers make different keys. */
  lemma RawKeyInjective(k1: nat, k2: nat)
    ensures RawKey(k1) == RawKey(k2) <==> k1 == k2
  {
    if RawKey(k1) == RawKey(k2) {
      var p := "HIERARCH ESO PRO REC2 RAW";
      var s1, s2 := NatToString(k1), NatToString(k2);
      assert |s1| == |s2|;
      assert s1 == RawKey(k1)[|p|..|p| + |s1|];
      assert s2 == RawKey(k2)[|p|..|p| + |s2|];
      NatToStringValue(k1);
      NatToStringValue(k2);
    }
  }

  /** One raw-file header card: its number and the file name it records */
  datatype RawCard = RawCard(number: nat, name: string)

  /** The cards in the order the loop `for i in range(len(list_files))`
      produces them: step i records file n-1-i under number n-i. */
  function RawCards(files: seq<string>): (cards: seq<RawCard>)
    ensures |cards| == |files|
    ensures forall i :: 0 <= i < |cards| ==> 1 <= cards[i].number <= |files| && cards[i].name == files[cards[i].number - 1]
    ensures forall i :: 0 <= i < |cards| - 1 ==> cards[i].number == cards[i + 1].number + 1
  {
    seq(|files|, i requires 0 <= i < |files| => RawCard(|files| - i, files[|files| - 1 - i]))
  }

  /** The file at list index k is recorded under number k+1, by exactly one
      card, and the numbers used are exactly 1 .. n. */
  lemma RawNumbering(files: seq<string>)
    ensures var cards := RawCards(files);
      && (forall k :: 0 <= k < |files| ==> cards[|files| - 1 - k] == RawCard(k + 1, files[k]))
      && (forall i, j :: 0 <= i < j < |cards| ==> cards[i].number != cards[j].number)
      && (forall i :: 0 <= i < |cards| ==> 1 <= cards[i].number <= |files|)
  {
    var cards, n := RawCards(files), |files|;
    assert forall i :: 0 <= i < n ==> cards[i] == RawCard(n - i, files[n - 1 - i]);
  }

  /** The PyCPL writer appends each card at the end of the header. */
  function AppendCards(header: seq<RawCard>, cards: seq<RawCard>): seq<RawCard> {
    header + cards
  }

  /** The astropy writer sets each card `after='ESO PRO REC2 ID'`, i.e. at
      the front of the block that follows the ID card, so each new card
      goes before the earlier ones. */
  function InsertAfterId(block: seq<RawCard>, cards: seq<RawCard>): (r: seq<RawCard>)
    ensures |r| == |block| + |cards|
    ensures r[|cards|..] == block
    ensures multiset(r) == multiset(cards) + multiset(block)
    decreases |cards|
  {
    if |cards| == 0 then block
    else
      assert cards == [cards[0]] + cards[1..];
      InsertAfterId([cards[0]] + block, cards[1..])
  }

  lemma {:induction false} InsertAfterIdReverses(block: seq<RawCard>, cards: seq<RawCard>)
    ensures InsertAfterId(block, cards) == Reverse(cards) + block
    decreases |cards|
  {
    if |cards| > 0 {
      var c, rest := cards[0], cards[1..];
      InsertAfterIdReverses([c] + block, rest);
      assert InsertAfterId(block, cards) == Reverse(rest) + ([c] + block);
      ReverseCons(cards);
      assert Reverse(rest) + ([c] + block) == (Reverse(rest) + [c]) + block;
    }
  }

  /** The PyCPL header lists the raw files by descending number, the astropy
      header by ascending number: there, card k is file k under number k+1. */
  lemma RawCardOrderInHeader(files: seq<string>)
    ensures var cards := RawCards(files);
      && AppendCards([], cards) == cards
      && (forall k :: 0 <= k < |files| ==> InsertAfterId([], cards)[k] == RawCard(k + 1, files[k]))
  {
    var cards := RawCards(files);
    var r := InsertAfterId([], cards);
    assert r == Reverse(cards) by {
      InsertAfterIdReverses([], cards);
      assert Reverse(cards) + [] == Reverse(cards);
    }
    forall k | 0 <= k < |files|
      ensures r[k] == RawCard(k + 1, files[k])
    {
      assert r[k] == cards[|files| - 1 - k];
    }
  }

  /** The three columns of one order */
  datatype OrderColumns = OrderColumns(wl: seq<Float>, spec: seq<Float>, err: seq<Float>)

  /** One order of write_fits: a processed order (a key of tpl_all) is
      written from the template dictionaries, which must then hold it too
      (KeyError otherwise); any other order keeps its wavelengths, scaled to
      Angstrom, with flux all ones and errors all NaN. */
  function FillOrder(o: int, current: OrderColumns, wtpl: map<int, seq<Float>>, tpl: map<int, seq<Float>>, e: map<int, seq<Float>>): (r: Option<OrderColumns>)
    ensures o in tpl ==> (r.Some? <==> o in wtpl && o in e)
    ensures o in tpl && r.Some? ==> r.value == OrderColumns(wtpl[o], tpl[o], e[o])
    ensures o !in tpl ==> r.Some?
    ensures o !in tpl ==> |r.value.spec| == FillLength && |r.value.err| == FillLength
    ensures o !in tpl ==> forall i :: 0 <= i < FillLength ==> r.value.spec[i] == Finite(1.0) && r.value.err[i].IsNaN()
    ensures o !in tpl ==> r.value.wl == ToAngstrom(current.wl)
  {
    if o in tpl then
      if o in wtpl && o in e then Some(OrderColumns(wtpl[o], tpl[o], e[o])) else None
    else
      Some(OrderColumns(ToAngstrom(current.wl), seq(FillLength, _ => Finite(1.0)), seq(FillLength, _ => NaN)))
  }

  /** One detector table of write_fits: each DRS order is rewritten under
      its linear order (7 - drs) * 3 + detector. */
  function WriteDetector(detector: int, table: seq<(int, OrderColumns)>, wtpl: map<int, seq<Float>>, tpl: map<int, seq<Float>>, e: map<int, seq<Float>>): (r: Option<seq<(int, OrderColumns)>>)
    ensures r.Some? ==> |r.value| == |table|
    ensures r.Some? ==> forall i :: 0 <= i < |table| ==>
      r.value[i].0 == table[i].0
      && FillOrder(LinearOrder(table[i].0, detector), table[i].1, wtpl, tpl, e) == Some(r.value[i].1)
    ensures r.None? <==> exists i :: 0 <= i < |table| && FillOrder(LinearOrder(table[i].0, detector), table[i].1, wtpl, tpl, e).None?
    decreases |table|
  {
    if |table| == 0 then Some([])
    else
      var head := FillOrder(LinearOrder(table[0].0, detector), table[0].1, wtpl, tpl, e);
      var tail := WriteDetector(detector, table[1..], wtpl, tpl, e);
      if head.None? then None
      else if tail.None? then
        assert exists i :: 0 <= i < |table[1..]| && FillOrder(LinearOrder(table[1..][i].0, detector), table[1..][i].1, wtpl, tpl, e).None?;
        None
      else
        var r := [(table[0].0, head.value)] + tail.value;
        assert forall i :: 1 <= i < |table| ==> r[i] == tail.value[i - 1] && table[i] == table[1..][i - 1];
        Some(r)
  }

  /** An unprocessed order of a written template reads back through Tpl
      (which does not rescale) with the wavelengths Spectrum gives for the
      input table. */
  lemma UnprocessedOrderKeepsWavelengths(o: int, current: OrderColumns, wtpl: map<int, seq<Float>>, tpl: map<int, seq<Float>>, e: map<int, seq<Float>>)
    requires o !in tpl
    requires |current.wl| == |current.spec| == |current.err|
    ensures forall cal: string, blaze: seq<Float> | !Contains(cal, FlatCategory) ==> |blaze| == |current.spec| ::
      FillOrder(o, current, wtpl, tpl, e).value.wl == ReadChunk(current.wl, current.spec, current.err, cal, blaze).wave
  {
  }
}

=== FILE: decimal.dfy ===
/**
 Python's `str()` of an int and `int()` of a string, restricted to what the
 CRIRES+ column and header names need: optional sign, decimal digits.
 */
module Decimal {
  import opened Values

  predicate IsDigit(ch: char) {
    '0' <= ch <= '9'
  }

  predicate AllDigits(s: string) {
    forall i :: 0 <= i < |s| ==> IsDigit(s[i])
  }

  function DigitValue(ch: char): nat
    requires IsDigit(ch)
  {
    ch as int - '0' as int
  }

  function DigitChar(d: nat): (ch: char)
    requires d < 10
    ensures IsDigit(ch) && DigitValue(ch) == d
  {
    ('0' as int + d) as char
  }

  /** str(n) for n >= 0: decimal digits without a leading zero */
  function NatToString(n: nat): (s: string)
    ensures |s| >= 1 && AllDigits(s)
    ensures |s| > 1 ==> s[0] != '0'
  {
    if n < 10 then [DigitChar(n)] else NatToString(n / 10) + [DigitChar(n % 10)]
  }

  /** str(i) */
  function IntToString(i: int): (s: string)
    ensures |s| >= 1
    ensures s[0] == '-' <==> i < 0
  {
    if i < 0 then "-" + NatToString(-i) else NatToString(i)
  }

  /** Value of a digit string, most significant digit first */
  function DigitsValue(s: string): nat
    requires AllDigits(s)
  {
    if |s| == 0 then 0 else DigitsValue(s[..|s| - 1]) * 10 + DigitValue(s[|s| - 1])
  }

  /** int(s): an optional sign and at least one digit; anything else is the
      ValueError case. */
  function ParseInt(s: string): (r: Option<int>)
    ensures r.Some? ==> |s| >= 1
    ensures |s| >= 1 && AllDigits(s) ==> r == Some(DigitsValue(s))
    ensures |s| >= 1 && !AllDigits(s) && s[0] != '-' && s[0] != '+' ==> r.None?
  {
    if |s| > 0 && (s[0] == '-' || s[0] == '+') then
      var body := s[1..];
      if |body| > 0 && AllDigits(body) then
        Some(if s[0] == '-' then -(DigitsValue(body) as int) else DigitsValue(body))
      else None
    else if |s| > 0 && AllDigits(s) then Some(DigitsValue(s))
    else None
  }

  /** Reading back the digits str(n) writes gives n. */
  lemma {:induction false} NatToStringValue(n: nat)
    ensures DigitsValue(NatToString(n)) == n
    decreases n
  {
    if n >= 10 {
      var s := NatToString(n);
      assert s[..|s| - 1] == NatToString(n / 10);
      NatToStringValue(n / 10);
    }
  }

  /** A leading zero does not change the value of a digit string. */
  lemma {:induction false} LeadingZeroValue(s: string)
    requires AllDigits(s)
    ensures AllDigits("0" + s)
    ensures DigitsValue("0" + s) == DigitsValue(s)
    decreases |s|
  {
    var t := "0" + s;
    if |s| > 0 {
      assert t[..|t| - 1] == "0" + s[..|s| - 1];
      LeadingZeroValue(s[..|s| - 1]);
    }
  }

  /** int(str(i)) == i for every int. */
  lemma IntToStringRoundTrip(i: int)
    ensures ParseInt(IntToString(i)) == Some(i)
  {
    if i < 0 {
      NegativeRoundTrip(i);
    } else {
      var s := NatToString(i);
      assert IsDigit(s[0]);
      NatToStringValue(i);
    }
  }

  /** The sign branch of int(): "-" followed by str(-i). */
  lemma NegativeRoundTrip(i: int)
    requires i < 0
    ensures ParseInt("-" + NatToString(-i)) == Some(i)
  {
    var body := NatToString(-i);
    var s := "-" + body;
    assert s[0] == '-' && s[1..] == body;
    assert |body| > 0 && AllDigits(body);
    NatToStringValue(-i);
  }

  /** int("0" + str(i)) gives i back exactly when i >= 0; a negative i
      leaves the sign after the zero, which int() rejects. */
  lemma ZeroPaddedRoundTrip(i: int)
    ensures ParseInt("0" + IntToString(i)) == (if i >= 0 then Some(i) else None)
  {
    var s := "0" + IntToString(i);
    if i >= 0 {
      LeadingZeroValue(NatToString(i));
      NatToStringValue(i);
    } else {
      assert s[1] == '-' && !IsDigit(s[1]);
      assert !AllDigits(s);
    }
  }
}

=== FILE: forward.dfy ===
/**
 The discrete steps of the forward model (model.py, class `model`): the
 grids built at construction, the 'valid'-mode IP convolution, the telluric
 bookkeeping, the background term and the continuum factor. Resampling
 (np.interp), the logarithmic wavelength solution and the stellar template
 interpolant are not modelled; their outputs enter as sequences.
 */
module Forward {
  import opened Values
  import opened Sums
  import opened Slices
  import opened Polynomials
  import Kernels
  import Parameters

  /** Speed of light in km/s, as model.py fixes it */
  const C: real := 300000.0

  /** Default half size of the IP support (IP_hs), in grid knots */
  const DefaultHalfSize: nat := 50

  /** What the constructor derives from the log-wavelength grid: the step
      dx, the IP velocity offsets vk and the valid (convolved) grid. */
  datatype Grid = Grid(dx: real, vk: seq<real>, effective: seq<real>)

  /** `lnwave_j[IP_hs:-IP_hs]` with Python's slice semantics, as written:
      for a positive half size the knots h .. n-h-1, and for a zero half
      size nothing, since `-0` is `0`. */
  function EffectiveGridAsWritten(lnwave: seq<real>, h: nat): (e: seq<real>)
    ensures h == 0 ==> e == []
    ensures h >= 1 ==> |e| == (if |lnwave| >= 2 * h then |lnwave| - 2 * h else 0)
    ensures h >= 1 ==> forall k :: 0 <= k < |e| ==> e[k] == lnwave[k + h]
  {
    Slice(lnwave, h, -(h as int))
  }

  /** The knots h .. n-h-1: the grid points at which the 'valid'
      convolution has an output. */
  function EffectiveGrid(lnwave: seq<real>, h: nat): (e: seq<real>)
    ensures |e| == (if |lnwave| >= 2 * h then |lnwave| - 2 * h else 0)
    ensures forall k :: 0 <= k < |e| ==> e[k] == lnwave[k + h]
  {
    if |lnwave| >= 2 * h then lnwave[h..|lnwave| - h] else []
  }

  /** For every positive half size the slice as written is the valid grid. */
  lemma EffectiveGridAsWrittenAgrees(lnwave: seq<real>, h: nat)
    requires h >= 1
    ensures EffectiveGridAsWritten(lnwave, h) == EffectiveGrid(lnwave, h)
  {
  }

  /** With IP_hs == 0, `-0` is `0` and the slice as written is empty, while
      the one-knot kernel convolves to one value per grid knot. */
  lemma EffectiveGridAsWrittenEmptyAtZero(lnwave: seq<real>)
    requires |lnwave| >= 1
    ensures EffectiveGridAsWritten(lnwave, 0) == []
    ensures |EffectiveGrid(lnwave, 0)| == |lnwave|
    ensures ValidConvolve([1.0], lnwave).Some? && |ValidConvolve([1.0], lnwave).value| == |lnwave|
  {
  }

  /** model.__init__: the step of the uniform log-wavelength grid, the IP
      velocity grid of 2h+1 knots spaced dx * c, and the grid slice as
      written, which is the valid grid for every positive half size and
      empty for a zero one. A grid of fewer than two knots has no step
      (IndexError). */
  function SetupGrid(lnwave: seq<real>, h: nat): (g: Option<Grid>)
    ensures g.None? <==> |lnwave| < 2
    ensures g.Some? ==> g.value.dx == lnwave[1] - lnwave[0]
    ensures g.Some? ==> g.value.vk == Kernels.VelocityGrid(h, g.value.dx * C)
    ensures g.Some? && h >= 1 ==> g.value.effective == EffectiveGrid(lnwave, h)
    ensures g.Some? && h == 0 ==> g.value.effective == []
  {
    if |lnwave| < 2 then None
    else
      var dx := lnwave[1] - lnwave[0];
      Some(Grid(dx, Kernels.VelocityGrid(h, dx * C), EffectiveGridAsWritten(lnwave, h)))
  }

  /** With the default half size of 50 knots the constructor's grid is the
      valid grid: n - 100 knots, starting 50 knots in. */
  lemma DefaultSetupIsValidGrid(lnwave: seq<real>)
    requires |lnwave| >= 2
    ensures var e := SetupGrid(lnwave, DefaultHalfSize).value.effective;
      && |e| == (if |lnwave| >= 100 then |lnwave| - 100 else 0)
      && forall k :: 0 <= k < |e| ==> e[k] == lnwave[k + 50]
  {
  }

  /** One output sample of a 'valid' convolution: the kernel dotted with the
      reversed window v[k .. k+|a|). */
  function Tap(a: seq<real>, v: seq<real>, k: nat): real
    requires k + |a| <= |v|
  {
    Dot(a, Reverse(v[k..k + |a|]))
  }

  function ValidCore(a: seq<real>, v: seq<real>): (r: seq<real>)
    requires 0 < |a| <= |v|
    ensures |r| == |v| - |a| + 1
  {
    seq(|v| - |a| + 1, k requires 0 <= k < |v| - |a| + 1 => Tap(a, v, k))
  }

  /** np.convolve(a, v, mode='valid'): numpy swaps the arguments when the
      first is the longer one and refuses empty input (ValueError). */
  function ValidConvolve(a: seq<real>, v: seq<real>): (r: Option<seq<real>>)
    ensures r.None? <==> |a| == 0 || |v| == 0
    ensures r.Some? ==> |r.value| == Max(|a|, |v|) - Min(|a|, |v|) + 1
  {
    if |a| == 0 || |v| == 0 then None
    else if |a| <= |v| then Some(ValidCore(a, v))
    else Some(ValidCore(v, a))
  }

  /** Convolving a grid of n knots with a kernel of 2h+1 knots yields
      n - 2h values, exactly one per knot of the valid grid. */
  lemma ConvolutionFitsEffectiveGrid(kernel: seq<real>, signal: seq<real>, lnwave: seq<real>, h: nat)
    requires |kernel| == 2 * h + 1
    requires |signal| == |lnwave| >= 2 * h + 1
    ensures ValidConvolve(kernel, signal).Some?
    ensures |ValidConvolve(kernel, signal).value| == |lnwave| - 2 * h == |EffectiveGrid(lnwave, h)|
  {
  }

  /** A unit-sum kernel conserves flux: a flat spectrum stays flat at the
      same level. */
  lemma {:induction false} ConvolutionPreservesFlat(kernel: seq<real>, n: nat, c: real)
    requires 0 < |kernel| <= n
    requires Sum(kernel) == 1.0
    ensures ValidConvolve(kernel, Constant(n, c)) == Some(Constant(n - |kernel| + 1, c))
  {
    var v := Constant(n, c);
    var r := ValidCore(kernel, v);
    forall k | 0 <= k < |r|
      ensures r[k] == c
    {
      assert Reverse(v[k..k + |kernel|]) == Constant(|kernel|, c);
      DotConstant(kernel, c);
    }
    assert r == Constant(n - |kernel| + 1, c);
  }

  /** The centred unit kernel (the limit of a very narrow IP) reproduces the
      signal on the valid grid. */
  lemma {:induction false} ConvolutionWithCentredUnit(kernel: seq<real>, signal: seq<real>, h: nat)
    requires |kernel| == 2 * h + 1 && |signal| >= 2 * h + 1
    requires forall i :: 0 <= i < |kernel| ==> kernel[i] == (if i == h then 1.0 else 0.0)
    ensures ValidConvolve(kernel, signal) == Some(EffectiveGrid(signal, h))
  {
    var r := ValidCore(kernel, signal);
    var e := EffectiveGrid(signal, h);
    forall k | 0 <= k < |r|
      ensures r[k] == e[k]
    {
      var w := signal[k..k + |kernel|];
      DotUnit(kernel, Reverse(w), h);
      assert Reverse(w)[h] == w[h] == signal[k + h];
    }
    assert r == e;
  }

  /** How the telluric coefficients are used when there are nMolec molecular
      templates: the first of them, through their absolute values, as
      exponents, and the one after the last template as a shared velocity
      shift. */
  datatype TelluricPlan = TelluricPlan(exponents: seq<real>, shift: Option<real>)

  function Abs(x: real): real {
    if x < 0.0 then -x else x
  }

  function PlanTellurics(nMolec: nat, coeffAtm: seq<real>): (p: TelluricPlan)
    ensures |p.exponents| == Min(nMolec, |coeffAtm|)
    ensures forall i :: 0 <= i < |p.exponents| ==> p.exponents[i] >= 0.0
    ensures forall i :: 0 <= i < |p.exponents| ==> p.exponents[i] == coeffAtm[i] || p.exponents[i] == -coeffAtm[i]
    ensures p.shift.Some? <==> nMolec > 0 && |coeffAtm| == nMolec + 1
    ensures p.shift.Some? ==> p.shift.value == coeffAtm[nMolec]
  {
    var n := Min(nMolec, |coeffAtm|);
    var exps := seq(n, i requires 0 <= i < n => Abs(coeffAtm[i]));
    var shift := if nMolec > 0 && |coeffAtm| == nMolec + 1 then Some(coeffAtm[nMolec]) else None;
    TelluricPlan(exps, shift)
  }

  /** All molecular templates are sampled on the same grid. */
  predicate SameGrid(fluxes: seq<seq<real>>) {
    |fluxes| > 0 && forall m :: 0 <= m < |fluxes| ==> |fluxes[m]| == |fluxes[0]|
  }

  /** The attenuation at knot j from the first m molecules:
      the product of flux_mol[j] ** e_mol. */
  function Attenuation(fluxes: seq<seq<real>>, exps: seq<real>, pow: (real, real) -> real, j: nat, m: nat): real
    requires SameGrid(fluxes) && j < |fluxes[0]|
    requires m <= |exps| && m <= |fluxes|
  {
    if m == 0 then 1.0 else Attenuation(fluxes, exps, pow, j, m - 1) * pow(fluxes[m - 1][j], exps[m - 1])
  }

  /** The telluric loop of model.__call__: start from ones and multiply in
      each molecule paired with its coefficient (zip stops at the shorter
      list), raised to the absolute coefficient. `pow` is the power function. */
  method AbsorberProduct(fluxes: seq<seq<real>>, coeffAtm: seq<real>, pow: (real, real) -> real) returns (atm: seq<real>)
    requires SameGrid(fluxes)
    ensures |atm| == |fluxes[0]|
    ensures forall j :: 0 <= j < |atm| ==>
      atm[j] == Attenuation(fluxes, PlanTellurics(|fluxes|, coeffAtm).exponents, pow, j, Min(|fluxes|, |coeffAtm|))
  {
    var exps := PlanTellurics(|fluxes|, coeffAtm).exponents;
    var n := |fluxes[0]|;
    atm := Constant(n, 1.0);
    var m := 0;
    while m < |exps|
      invariant 0 <= m <= |exps|
      invariant |atm| == n
      invariant forall j :: 0 <= j < n ==> atm[j] == Attenuation(fluxes, exps, pow, j, m)
    {
      var e := exps[m];
      var f := fluxes[m];
      atm := seq(n, j requires 0 <= j < n => atm[j] * pow(f[j], e));
      m := m + 1;
    }
  }

  /** With every used exponent zero the atmosphere is transparent. */
  lemma {:induction false} ZeroExponentsTransparent(fluxes: seq<seq<real>>, exps: seq<real>, pow: (real, real) -> real, j: nat, m: nat)
    requires SameGrid(fluxes) && j < |fluxes[0]|
    requires m <= |exps| && m <= |fluxes|
    requires forall i :: 0 <= i < m ==> exps[i] == 0.0
    requires forall x: real :: pow(x, 0.0) == 1.0
    ensures Attenuation(fluxes, exps, pow, j, m) == 1.0
    decreases m
  {
    if m > 0 {
      ZeroExponentsTransparent(fluxes, exps, pow, j, m - 1);
      assert pow(fluxes[m - 1][j], exps[m - 1]) == 1.0;
    }
  }

  /** `S_star(...) * (spec_gas + coeff_bkg[0])`: only the first background
      coefficient is used; an empty background list is an IndexError. */
  function Illuminate(star: seq<real>, gas: seq<real>, bkg: seq<real>): (r: Option<seq<real>>)
    requires |star| == |gas|
    ensures r.None? <==> |bkg| == 0
    ensures r.Some? ==> |r.value| == |star|
    ensures r.Some? ==> forall j :: 0 <= j < |star| ==> r.value[j] - star[j] * gas[j] == star[j] * bkg[0]
  {
    if |bkg| == 0 then None
    else Some(seq(|star|, j requires 0 <= j < |star| => star[j] * (gas[j] + bkg[0])))
  }

  /** The default background [0] leaves the product of star and gas. */
  lemma DefaultBackgroundIsNeutral(star: seq<real>, gas: seq<real>)
    requires |star| == |gas|
    ensures Illuminate(star, gas, [0.0]) == Some(seq(|star|, j requires 0 <= j < |star| => star[j] * gas[j]))
  {
    var r := Illuminate(star, gas, [0.0]).value;
    var expected := seq(|star|, j requires 0 <= j < |star| => star[j] * gas[j]);
    assert forall j :: 0 <= j < |star| ==> r[j] == expected[j];
    assert r == expected;
  }

  /** How `model.fit` hands the background group to `model.__call__`: its
      defaults `par_bkg = []` and `parfix_bkg = []` leave coeff_bkg empty,
      and then `coeff_bkg[0]` raises, whatever the other groups hold. */
  lemma FitWithoutBackgroundFails(s: Parameters.FitSetup, params: seq<real>, star: seq<real>, gas: seq<real>)
    requires Parameters.ValidSetup(s) && |params| == |Parameters.Flatten(s.free)|
    requires s.free[Parameters.BackgroundGroup] == [] && s.fixed[Parameters.BackgroundGroup] == []
    requires |star| == |gas|
    ensures Illuminate(star, gas, Parameters.EvaluatorArguments(s, params)[Parameters.BackgroundGroup]).None?
  {
  }

  /** The evidently intended background argument: an empty group falls
      back to `__call__`'s own default `[0]`; any other group is passed on
      unchanged. */
  function BackgroundArgument(bkg: seq<real>): (b: seq<real>)
    ensures |b| >= 1
    ensures bkg != [] ==> b == bkg
    ensures bkg == [] ==> b == [0.0]
  {
    if bkg == [] then [0.0] else bkg
  }

  /** With that fallback a fit without background parameters evaluates to
      star × gas, exactly as a direct call with the default background. */
  lemma FitWithoutBackgroundIsNeutral(s: Parameters.FitSetup, params: seq<real>, star: seq<real>, gas: seq<real>)
    requires Parameters.ValidSetup(s) && |params| == |Parameters.Flatten(s.free)|
    requires s.free[Parameters.BackgroundGroup] == [] && s.fixed[Parameters.BackgroundGroup] == []
    requires |star| == |gas|
    ensures Illuminate(star, gas, BackgroundArgument(Parameters.EvaluatorArguments(s, params)[Parameters.BackgroundGroup]))
      == Some(seq(|star|, j requires 0 <= j < |star| => star[j] * gas[j]))
    ensures Illuminate(star, gas, BackgroundArgument(Parameters.EvaluatorArguments(s, params)[Parameters.BackgroundGroup]))
      == Illuminate(star, gas, [0.0])
  {
    DefaultBackgroundIsNeutral(star, gas);
  }

  /** The continuum factor poly(pixel - xcen, coeff_norm) times the resampled
      model. */
  function ApplyContinuum(pixel: seq<real>, xcen: real, coeffNorm: seq<real>, model: seq<real>): (r: seq<real>)
    requires |pixel| == |model|
    ensures |r| == |pixel|
    ensures forall i :: 0 <= i < |pixel| ==> r[i] == PowerSum(pixel[i] - xcen, coeffNorm) * model[i]
  {
    var r := seq(|pixel|, i requires 0 <= i < |pixel| => Poly(pixel[i] - xcen, coeffNorm) * model[i]);
    assert forall i :: 0 <= i < |pixel| ==> r[i] == PowerSum(pixel[i] - xcen, coeffNorm) * model[i] by {
      forall i | 0 <= i < |pixel| { PolyIsPowerSum(pixel[i] - xcen, coeffNorm); }
    }
    r
  }

  /** The identity continuum [1] leaves the model unchanged, and appending
      zero higher-order coefficients changes nothing. */
  lemma ContinuumNeutral(pixel: seq<real>, xcen: real, a0: real, k: nat, model: seq<real>)
    requires |pixel| == |model|
    ensures ApplyContinuum(pixel, xcen, [1.0], model) == model
    ensures ApplyContinuum(pixel, xcen, [a0] + seq(k, _ => 0.0), model) == ApplyContinuum(pixel, xcen, [a0], model)
  {
    forall i | 0 <= i < |pixel|
      ensures Poly(pixel[i] - xcen, [1.0]) == 1.0
      ensures Poly(pixel[i] - xcen, [a0] + seq(k, _ => 0.0)) == Poly(pixel[i] - xcen, [a0])
    {
      PolyCons(pixel[i] - xcen, 1.0, []);
      PolyZeroExtension(pixel[i] - xcen, [a0], k);
    }
    assert ApplyContinuum(pixel, xcen, [1.0], model) == model;
    var extended := ApplyContinuum(pixel, xcen, [a0] + seq(k, _ => 0.0), model);
    var plain := ApplyContinuum(pixel, xcen, [a0], model);
    assert forall i :: 0 <= i < |pixel| ==> extended[i] == plain[i];
    assert extended == plain;
  }
}

=== FILE: kernels.dfy ===
/**
 The structural part of the instrumental-profile (IP) kernel library of
 model.py: the symmetric velocity grid the kernels are sampled on, unit-sum
 normalisation, the clip-then-normalise order of the multi-central Gaussian,
 and the amplitude bookkeeping of the Gaussian spline. The kernel shapes
 themselves (exp, erf, tanh) are not modelled: they enter as sampled values.
 */
module Kernels {
  import opened Values
  import opened Sums

  /** Fixed width of every Gaussian of the Gaussian spline, and the spacing
      of its knots (model.py, IP_mg). */
  const SplineWidth: real := 0.9

  /** The free amplitude of IP_mcg's background Gaussian enters divided by
      ten. */
  const McgAmplitudeDivisor: real := 10.0

  /** The velocity offsets vk = (k - h) * step, k = 0 .. 2h, with
      step = dx * c the grid spacing in km/s. */
  function VelocityGrid(h: nat, step: real): (vk: seq<real>)
    ensures |vk| == 2 * h + 1
  {
    seq(2 * h + 1, k => (k - h) as real * step)
  }

  /** The grid has 2h+1 knots, is zero at its centre, antisymmetric about it,
      and increasing when the spacing is positive. */
  lemma VelocityGridShape(h: nat, step: real)
    ensures var vk := VelocityGrid(h, step);
      && vk[h] == 0.0
      && (forall i :: 0 <= i <= 2 * h ==> vk[i] == -vk[2 * h - i])
      && (step > 0.0 ==> forall i, j :: 0 <= i < j < |vk| ==> vk[i] < vk[j])
  {
    var vk := VelocityGrid(h, step);
    forall i | 0 <= i <= 2 * h
      ensures vk[i] == -vk[2 * h - i]
    {
      assert vk[2 * h - i] == (h - i) as real * step;
    }
    if step > 0.0 {
      forall i, j | 0 <= i < j < |vk|
        ensures vk[i] < vk[j]
      {
        ScaleMonotone((i - h) as real, (j - h) as real, step);
      }
    }
  }

  lemma ScaleMonotone(a: real, b: real, step: real)
    requires a < b && step > 0.0
    ensures a * step < b * step
  {
  }

  /** `IP_k /= IP_k.sum()`. A zero sum leaves numpy with a non-finite kernel,
      modelled as None. */
  function Normalise(k: seq<real>): (r: Option<seq<real>>)
    ensures r.None? <==> Sum(k) == 0.0
    ensures r.Some? ==> |r.value| == |k| && Sum(r.value) == 1.0
    ensures r.Some? ==> forall i :: 0 <= i < |k| ==> r.value[i] * Sum(k) == k[i]
  {
    var s := Sum(k);
    if s == 0.0 then None
    else
      var c := 1.0 / s;
      SumScale(k, c);
      Some(seq(|k|, i requires 0 <= i < |k| => c * k[i]))
  }

  /** `IP_k /= IP_k.sum()` as numpy evaluates it: a zero sum raises nothing
      and leaves a kernel without a single finite entry, NaN exactly where the
      entry was 0. */
  function NormaliseAsWritten(k: seq<real>): (r: seq<Float>)
    ensures |r| == |k|
    ensures Sum(k) != 0.0 ==> forall i :: 0 <= i < |k| ==> r[i].IsFinite() && r[i].v * Sum(k) == k[i]
    ensures Sum(k) == 0.0 ==> forall i :: 0 <= i < |k| ==> !r[i].IsFinite() && (r[i].IsNaN() <==> k[i] == 0.0)
  {
    seq(|k|, i requires 0 <= i < |k| => Divide(k[i], Sum(k)))
  }

  /** Where Normalise succeeds the code as written computes the same kernel;
      where Normalise reports the zero sum, the code as written carries on
      with a kernel that has no finite entry. */
  lemma NormaliseAsWrittenAgrees(k: seq<real>)
    ensures Normalise(k).Some? ==> forall i :: 0 <= i < |k| ==> NormaliseAsWritten(k)[i] == Finite(Normalise(k).value[i])
    ensures Normalise(k).None? ==> forall i :: 0 <= i < |k| ==> !NormaliseAsWritten(k)[i].IsFinite()
  {
    var r := NormaliseAsWritten(k);
    if Normalise(k).Some? {
      var s := Sum(k);
      forall i | 0 <= i < |k|
        ensures r[i] == Finite(Normalise(k).value[i])
      {
        assert r[i] == Finite(k[i] / s);
        assert Normalise(k).value[i] == (1.0 / s) * k[i];
      }
    }
  }

  /** `clip(0, None)`: negative entries become zero. */
  function Clip(k: seq<real>): (r: seq<real>)
    ensures |r| == |k|
    ensures forall i :: 0 <= i < |k| ==> r[i] == MaxReal(k[i], 0.0)
  {
    seq(|k|, i requires 0 <= i < |k| => MaxReal(k[i], 0.0))
  }

  /** IP_mcg clips before it normalises, so its kernel is non-negative as
      well as of unit sum; it fails only when no entry is positive. */
  function ClipNormalise(k: seq<real>): (r: Option<seq<real>>)
    ensures r.None? <==> forall i :: 0 <= i < |k| ==> k[i] <= 0.0
    ensures r.Some? ==> |r.value| == |k| && Sum(r.value) == 1.0
    ensures r.Some? ==> forall i :: 0 <= i < |k| ==> r.value[i] >= 0.0
    ensures r.Some? ==> forall i :: 0 <= i < |k| ==> (r.value[i] == 0.0 <==> k[i] <= 0.0)
  {
    var c := Clip(k);
    SumNonNegative(c);
    if Sum(c) == 0.0 then
      assert forall i :: 0 <= i < |k| ==> c[i] == 0.0;
      None
    else
      assert Sum(c) > 0.0;
      Normalise(c)
  }

  /** The unclipped IP_mcg profile: the main Gaussian plus a1/10 times the
      background Gaussian, both sampled on the same grid. */
  function McgProfile(main: seq<real>, background: seq<real>, a1: real): (p: seq<real>)
    requires |main| == |background|
    ensures |p| == |main|
    ensures forall i :: 0 <= i < |main| ==> p[i] == main[i] + a1 / 10.0 * background[i]
  {
    seq(|main|, i requires 0 <= i < |main| => main[i] + a1 / McgAmplitudeDivisor * background[i])
  }

  /** IP_mcg: a non-negative unit-sum kernel whose every entry is
      proportional to the clipped profile. */
  function McgKernel(main: seq<real>, background: seq<real>, a1: real): (r: Option<seq<real>>)
    requires |main| == |background|
    ensures r.Some? ==> |r.value| == |main| && Sum(r.value) == 1.0
    ensures r.Some? ==> forall i :: 0 <= i < |main| ==> r.value[i] >= 0.0
    ensures r.None? <==> forall i :: 0 <= i < |main| ==> main[i] + a1 / 10.0 * background[i] <= 0.0
  {
    ClipNormalise(McgProfile(main, background, a1))
  }

  /** IP_mcg as numpy evaluates it. Where McgKernel succeeds the two agree;
      where McgKernel reports a profile with no positive entry, the clipped
      profile is all zeros and every entry of the kernel is 0/0, NaN. */
  function McgKernelAsWritten(main: seq<real>, background: seq<real>, a1: real): (r: seq<Float>)
    requires |main| == |background|
    ensures |r| == |main|
    ensures McgKernel(main, background, a1).Some? ==>
      forall i :: 0 <= i < |main| ==> r[i] == Finite(McgKernel(main, background, a1).value[i])
    ensures McgKernel(main, background, a1).None? ==> forall i :: 0 <= i < |main| ==> r[i].IsNaN()
  {
    var p := McgProfile(main, background, a1);
    var c := Clip(p);
    NormaliseAsWrittenAgrees(c);
    SumNonNegative(c);
    assert Sum(c) == 0.0 ==> forall i :: 0 <= i < |c| ==> c[i] == 0.0;
    NormaliseAsWritten(c)
  }

  /** With a1 = -10 the background Gaussian cancels the main one at the
      centre and outweighs it elsewhere, so IP_mcg silently returns NaN
      everywhere instead of failing. */
  lemma McgKernelNaNAtMinusTen(main: seq<real>, background: seq<real>)
    requires |main| == |background|
    requires forall i :: 0 <= i < |main| ==> main[i] <= background[i]
    ensures McgKernel(main, background, -10.0).None?
    ensures forall i :: 0 <= i < |main| ==> McgKernelAsWritten(main, background, -10.0)[i].IsNaN()
  {
    var p := McgProfile(main, background, -10.0);
    forall i | 0 <= i < |main|
      ensures p[i] <= 0.0
    {
      assert p[i] == main[i] - background[i];
    }
  }

  /** IP_mg: the squashed free amplitudes with a unit amplitude inserted at
      index len(a) // 2, the central knot. */
  function SplineAmplitudes(sq: seq<real>): (r: seq<real>)
    ensures |r| == |sq| + 1
    ensures r[|sq| / 2] == 1.0 && r[(|r| - 1) / 2] == 1.0
    ensures forall i :: 0 <= i < |sq| / 2 ==> r[i] == sq[i]
    ensures forall i :: |sq| / 2 <= i < |sq| ==> r[i + 1] == sq[i]
  {
    sq[..|sq| / 2] + [1.0] + sq[|sq| / 2..]
  }

  /** Deleting entry m of a sequence */
  function RemoveAt<T>(s: seq<T>, m: nat): (r: seq<T>)
    requires m < |s|
    ensures |r| == |s| - 1
  {
    s[..m] + s[m + 1..]
  }

  /** The insertion loses nothing and reorders nothing: removing the central
      unit amplitude gives the free amplitudes back. */
  lemma SplineAmplitudesRoundTrip(sq: seq<real>)
    ensures RemoveAt(SplineAmplitudes(sq), |sq| / 2) == sq
  {
    var r := SplineAmplitudes(sq);
    var m := |sq| / 2;
    assert r[..m] == sq[..m];
    assert r[m + 1..] == sq[m..];
    assert sq[..m] + sq[m..] == sq;
  }

  /** Knot numbers 0 .. n-1 */
  function Knots(n: nat): (xl: seq<real>)
    ensures |xl| == n
  {
    seq(n, k => k as real)
  }

  /** The amplitude-weighted mean knot xm = dot(xl, a) / sum(a); a zero
      amplitude sum is numpy's NaN, modelled as None. */
  function KnotCentroid(a: seq<real>): (xm: Option<real>)
    ensures xm.None? <==> Sum(a) == 0.0
    ensures xm.Some? ==> xm.value * Sum(a) == Dot(a, Knots(|a|))
  {
    if Sum(a) == 0.0 then None else Some(Dot(a, Knots(|a|)) / Sum(a))
  }

  /** `np.dot(xl, a) / sum(a)` as numpy evaluates it: a zero amplitude sum
      gives a non-finite centroid (NaN when the weighted sum is 0 too)
      instead of failing. */
  function KnotCentroidAsWritten(a: seq<real>): (xm: Float)
    ensures KnotCentroid(a).Some? ==> xm == Finite(KnotCentroid(a).value)
    ensures KnotCentroid(a).None? ==> !xm.IsFinite()
    ensures KnotCentroid(a).None? ==> (xm.IsNaN() <==> Dot(a, Knots(|a|)) == 0.0)
  {
    Divide(Dot(a, Knots(|a|)), Sum(a))
  }

  /** Two free amplitudes squashed to -1/2 each sum with the inserted unit
      amplitude to 0, and the centroid is 0/0. */
  lemma KnotCentroidNaNExample()
    ensures SplineAmplitudes([-0.5, -0.5]) == [-0.5, 1.0, -0.5]
    ensures KnotCentroid([-0.5, 1.0, -0.5]).None?
    ensures KnotCentroidAsWritten([-0.5, 1.0, -0.5]).IsNaN()
  {
    var a := [-0.5, 1.0, -0.5];
    assert Sum(a) == -0.5 + Sum([1.0, -0.5]);
    assert Sum([1.0, -0.5]) == 1.0 + Sum([-0.5]);
    assert Sum([-0.5]) == -0.5 + Sum([]);
    var xl := Knots(3);
    assert xl == [0.0, 1.0, 2.0];
    assert Dot(a, xl) == 0.0;
  }

  /** Knot positions dx * (xl - xm), recentred so that the amplitude-weighted
      mean position is zero: this is what makes the Gaussian-spline IP have
      zero mean offset. */
  function KnotPositions(a: seq<real>): (xc: Option<seq<real>>)
    ensures xc.None? <==> Sum(a) == 0.0
    ensures xc.Some? ==> |xc.value| == |a|
    ensures xc.Some? ==> Dot(a, xc.value) == 0.0
    ensures xc.Some? ==> forall i, j :: 0 <= i < j < |a| ==> xc.value[j] - xc.value[i] == SplineWidth * (j - i) as real
  {
    match KnotCentroid(a)
    case None => None
    case Some(xm) =>
      var xl := Knots(|a|);
      var xc := seq(|xl|, k requires 0 <= k < |xl| => SplineWidth * (xl[k] - xm));
      DotAffine(a, xl, xc, SplineWidth, xm);
      Some(xc)
  }
}

=== FILE: orchestration.dfy ===
/**
 The list logic of viper.py's per-order driver: the wavelength window the
 template, the observation and the FTS share, the `searchsorted` trimming
 with a 100 km/s margin, the initial guesses handed from one fit stage to
 the next, the NaN-tolerant aggregation of the order velocities and the
 interleaved output row.
 */
module Orchestration {
  import opened Values
  import opened Sums
  import opened Slices
  import opened Polynomials
  import Forward

  // ---------------------------------------------------------------------
  // Common window
  // ---------------------------------------------------------------------

  datatype Window = Window(lmin: real, lmax: real)

  /** lmin = max of the three first wavelengths, lmax = min of the three
      last ones. Indexing an empty array is an error. */
  function CommonWindow(tpl: seq<real>, obs: seq<real>, fts: seq<real>): (w: Option<Window>)
    ensures w.None? <==> tpl == [] || obs == [] || fts == []
    ensures w.Some? ==> w.value.lmin >= tpl[0] && w.value.lmin >= obs[0] && w.value.lmin >= fts[0]
    ensures w.Some? ==> w.value.lmin == tpl[0] || w.value.lmin == obs[0] || w.value.lmin == fts[0]
    ensures w.Some? ==> w.value.lmax <= tpl[|tpl| - 1] && w.value.lmax <= obs[|obs| - 1] && w.value.lmax <= fts[|fts| - 1]
    ensures w.Some? ==> w.value.lmax == tpl[|tpl| - 1] || w.value.lmax == obs[|obs| - 1] || w.value.lmax == fts[|fts| - 1]
  {
    if tpl == [] || obs == [] || fts == [] then None
    else Some(Window(MaxReal(MaxReal(tpl[0], obs[0]), fts[0]),
                     MinReal(MinReal(tpl[|tpl| - 1], obs[|obs| - 1]), fts[|fts| - 1])))
  }

  /** Non-decreasing, the precondition of numpy's searchsorted. */
  predicate Sorted(a: seq<real>) {
    forall i, j :: 0 <= i < j < |a| ==> a[i] <= a[j]
  }

  /** Every wavelength of the common window lies inside each of the three
      sorted grids. */
  lemma WindowInsideEveryGrid(tpl: seq<real>, obs: seq<real>, fts: seq<real>, x: real)
    requires CommonWindow(tpl, obs, fts).Some?
    requires CommonWindow(tpl, obs, fts).value.lmin <= x <= CommonWindow(tpl, obs, fts).value.lmax
    ensures tpl[0] <= x <= tpl[|tpl| - 1]
    ensures obs[0] <= x <= obs[|obs| - 1]
    ensures fts[0] <= x <= fts[|fts| - 1]
  {
  }

  // ---------------------------------------------------------------------
  // searchsorted
  // ---------------------------------------------------------------------

  /** How many entries lie strictly below x: the reference definition of
      searchsorted's default (left) insertion point. */
  function CountBelow(a: seq<real>, x: real): (r: nat)
    ensures r <= |a|
  {
    if a == [] then 0 else (if a[0] < x then 1 else 0) + CountBelow(a[1..], x)
  }

  /** r is an insertion point: everything before it is below x, nothing
      from it on is. */
  predicate SplitsAt(a: seq<real>, x: real, r: nat) {
    r <= |a| && (forall i :: 0 <= i < r ==> a[i] < x) && (forall i :: r <= i < |a| ==> a[i] >= x)
  }

  /** On a sorted array the count is the insertion point. */
  lemma {:induction false} CountBelowSplits(a: seq<real>, x: real)
    requires Sorted(a)
    ensures SplitsAt(a, x, CountBelow(a, x))
    decreases |a|
  {
    if a != [] {
      var t := a[1..];
      assert Sorted(t);
      CountBelowSplits(t, x);
      var c := CountBelow(t, x);
      if a[0] < x {
        forall i | 0 <= i < c + 1
          ensures a[i] < x
        {
          if i > 0 {
            assert a[i] == t[i - 1];
          }
        }
        forall i | c + 1 <= i < |a|
          ensures a[i] >= x
        {
          assert a[i] == t[i - 1];
        }
      } else {
        if t != [] {
          assert t[0] == a[1] && a[0] <= a[1];
        }
        assert c == 0;
        forall i | 0 <= i < |a|
          ensures a[i] >= x
        {
          assert a[0] <= a[i];
        }
      }
    }
  }

  /** A sorted array has exactly one insertion point for each x. */
  lemma InsertionPointUnique(a: seq<real>, x: real, r: nat)
    requires Sorted(a)
    ensures SplitsAt(a, x, r) <==> r == CountBelow(a, x)
  {
    CountBelowSplits(a, x);
    if SplitsAt(a, x, r) {
      SplitIsCount(a, x, r);
    }
  }

  /** Wherever the array splits, the split point counts the entries below x. */
  lemma {:induction false} SplitIsCount(a: seq<real>, x: real, r: nat)
    requires SplitsAt(a, x, r)
    ensures CountBelow(a, x) == r
    decreases |a|
  {
    if a != [] {
      var t := a[1..];
      var r' := if r > 0 then r - 1 else 0;
      forall i | 0 <= i < r'
        ensures t[i] < x
      {
        assert t[i] == a[i + 1];
      }
      forall i | r' <= i < |t|
        ensures t[i] >= x
      {
        assert t[i] == a[i + 1];
      }
      SplitIsCount(t, x, r');
    }
  }

  /** A larger x never has fewer entries below it. */
  lemma {:induction false} CountBelowMonotone(a: seq<real>, x: real, y: real)
    requires x <= y
    ensures CountBelow(a, x) <= CountBelow(a, y)
    decreases |a|
  {
    if a != [] {
      CountBelowMonotone(a[1..], x, y);
    }
  }

  /** numpy's searchsorted by bisection. */
  method SearchSorted(a: seq<real>, x: real) returns (r: nat)
    requires Sorted(a)
    ensures r == CountBelow(a, x)
  {
    var lo, hi := 0, |a|;
    while lo < hi
      invariant 0 <= lo <= hi <= |a|
      invariant forall i :: 0 <= i < lo ==> a[i] < x
      invariant forall i :: hi <= i < |a| ==> a[i] >= x
      decreases hi - lo
    {
      var mid := (lo + hi) / 2;
      if a[mid] < x {
        lo := mid + 1;
      } else {
        hi := mid;
      }
    }
    r := lo;
    InsertionPointUnique(a, x, r);
  }

  // ---------------------------------------------------------------------
  // Trimming
  // ---------------------------------------------------------------------

  /** `a[slice(*np.searchsorted(a, [lo, hi]))]`: on a sorted array only
      entries in [lo, hi) are kept, as many as lie below hi but not below
      lo. */
  function Trim(a: seq<real>, lo: real, hi: real): (t: seq<real>)
    ensures |t| <= |a|
    ensures Sorted(a) ==> forall i :: 0 <= i < |t| ==> lo <= t[i] < hi
    ensures Sorted(a) && lo <= hi ==> |t| == CountBelow(a, hi) - CountBelow(a, lo)
  {
    if Sorted(a) then
      CountBelowSplits(a, lo);
      CountBelowSplits(a, hi);
      if lo <= hi then CountBelowMonotone(a, lo, hi); Slice(a, CountBelow(a, lo), CountBelow(a, hi))
      else CountBelowMonotone(a, hi, lo); Slice(a, CountBelow(a, lo), CountBelow(a, hi))
    else Slice(a, CountBelow(a, lo), CountBelow(a, hi))
  }

  /** On a sorted array with lo <= hi the two insertion points are ordered
      and inside the array, and the slice keeps exactly the entries in
      [lo, hi). */
  lemma TrimKeepsWindow(a: seq<real>, lo: real, hi: real)
    requires Sorted(a) && lo <= hi
    ensures 0 <= CountBelow(a, lo) <= CountBelow(a, hi) <= |a|
    ensures Trim(a, lo, hi) == a[CountBelow(a, lo)..CountBelow(a, hi)]
    ensures forall i :: 0 <= i < |a| ==> (CountBelow(a, lo) <= i < CountBelow(a, hi) <==> lo <= a[i] < hi)
  {
    CountBelowMonotone(a, lo, hi);
    CountBelowSplits(a, lo);
    CountBelowSplits(a, hi);
  }

  /** A reversed window (lo > hi) keeps nothing. */
  lemma TrimReversedIsEmpty(a: seq<real>, lo: real, hi: real)
    requires lo > hi
    ensures Trim(a, lo, hi) == []
    ensures forall i :: 0 <= i < |a| ==> !(lo <= a[i] < hi)
  {
    CountBelowMonotone(a, hi, lo);
  }

  /** `100/c`: 100 km/s in log-wavelength. */
  const Margin: real := 100.0 / Forward.C

  /** The knots kept for the model: searchsorted of
      [log(lmin) + 100/c, log(lmax) - 100/c] in the full knot grid. The
      logarithms are taken by the caller. */
  function KnotWindow(xjFull: seq<real>, lnLmin: real, lnLmax: real): (xj: seq<real>)
    requires Sorted(xjFull)
    ensures forall i :: 0 <= i < |xj| ==> lnLmin + Margin <= xj[i] < lnLmax - Margin
    ensures forall i :: 0 <= i < |xjFull| && lnLmin + Margin <= xjFull[i] < lnLmax - Margin ==> xjFull[i] in xj
    ensures |xj| <= |xjFull|
  {
    var lo, hi := lnLmin + Margin, lnLmax - Margin;
    if lo <= hi then
      TrimKeepsWindow(xjFull, lo, hi);
      var t := Trim(xjFull, lo, hi);
      var a, b := CountBelow(xjFull, lo), CountBelow(xjFull, hi);
      assert forall i :: a <= i < b ==> t[i - a] == xjFull[i];
      t
    else TrimReversedIsEmpty(xjFull, lo, hi); Trim(xjFull, lo, hi)
  }

  /** The observed pixels kept: searchsorted of [xj[0] + 100/c,
      xj[-1] - 100/c] in the log wavelengths of the observation, as a pair
      of slice bounds. An empty knot grid is an IndexError. */
  function ObservationBounds(lnObs: seq<real>, xj: seq<real>): (b: Option<(nat, nat)>)
    ensures b.None? <==> xj == []
    ensures b.Some? ==> b.value.1 <= |lnObs|
  {
    if xj == [] then None
    else Some((CountBelow(lnObs, xj[0] + Margin), CountBelow(lnObs, xj[|xj| - 1] - Margin)))
  }

  /** Every kept observed pixel sits at least 100 km/s inside the knot
      grid, and no pixel that does is dropped. */
  lemma ObservationInsideKnots(lnObs: seq<real>, xj: seq<real>)
    requires Sorted(lnObs) && xj != []
    requires xj[0] + Margin <= xj[|xj| - 1] - Margin
    ensures var b := ObservationBounds(lnObs, xj).value;
      b.0 <= b.1 &&
      forall i :: 0 <= i < |lnObs| ==>
        (b.0 <= i < b.1 <==> xj[0] + Margin <= lnObs[i] < xj[|xj| - 1] - Margin)
  {
    TrimKeepsWindow(lnObs, xj[0] + Margin, xj[|xj| - 1] - Margin);
  }

  // ---------------------------------------------------------------------
  // Initial guesses
  // ---------------------------------------------------------------------

  /** v0: the RV guess the joint fit of stage 3 starts from. */
  const V0: real := -2.0

  /** The wavelength solution's starting point: the straight line through
      w[0] at pixel 0 that reaches w[-1] at pixel n. Empty input is an
      IndexError. */
  function LinearGuess(w: seq<real>): (b: Option<seq<real>>)
    ensures b.None? <==> w == []
    ensures b.Some? ==> |b.value| == 2 && b.value[0] == w[0]
  {
    if w == [] then None else Some([w[0], (w[|w| - 1] - w[0]) / |w| as real])
  }

  /** The line meets the first wavelength at pixel 0 and the last one at
      pixel n. */
  lemma LinearGuessEndpoints(w: seq<real>)
    requires w != []
    ensures Poly(0.0, LinearGuess(w).value) == w[0]
    ensures Poly(|w| as real, LinearGuess(w).value) == w[|w| - 1]
  {
    var n := |w| as real;
    var slope := (w[|w| - 1] - w[0]) / n;
    var b := LinearGuess(w).value;
    PolyAtZero(b);
    PolyCons(n, w[0], [slope]);
    PolyCons(n, slope, []);
    PolyEmpty(n);
    assert b == [w[0]] + [slope];
    assert [w[0]] + [slope] == [w[0], slope];
    assert Poly(n, [slope]) == slope;
    assert n * slope == w[|w| - 1] - w[0];
  }

  /** curve_fit's starting point when no p0 is given: all ones. */
  function DefaultStart(k: nat): (p: seq<real>)
    ensures |p| == k && forall i :: 0 <= i < k ==> p[i] == 1.0
  {
    Sums.Constant(k, 1.0)
  }

  /** The slit-width-fixed fits pass s = 2.2. */
  const FixedWidth: real := 2.2

  /** The model arguments one parameter vector stands for. */
  datatype Arguments = Arguments(v: real, a: seq<real>, b: seq<real>, s: real)

  /** S_vab and S_va: (v, a, b0..b3) with the width fixed at 2.2. */
  function BindVab(p: seq<real>): (r: Option<Arguments>)
    ensures r.Some? <==> |p| == 6
    ensures r.Some? ==> r.value.v == p[0] && r.value.a == [p[1]] && r.value.b == p[2..6] && r.value.s == FixedWidth
  {
    if |p| == 6 then Some(Arguments(p[0], [p[1]], p[2..6], FixedWidth)) else None
  }

  /** S_vabs: (v, a, b0..b3, s). */
  function BindVabs(p: seq<real>): (r: Option<Arguments>)
    ensures r.Some? <==> |p| == 7
    ensures r.Some? ==> r.value.v == p[0] && r.value.a == [p[1]] && r.value.b == p[2..6] && r.value.s == p[6]
  {
    if |p| == 7 then Some(Arguments(p[0], [p[1]], p[2..6], p[6])) else None
  }

  /** S: (v, a0..a3, b0..b3, s). */
  function BindFull(p: seq<real>): (r: Option<Arguments>)
    ensures r.Some? <==> |p| == 10
    ensures r.Some? ==> r.value.v == p[0] && r.value.a == p[1..5] && r.value.b == p[5..9] && r.value.s == p[9]
  {
    if |p| == 10 then Some(Arguments(p[0], p[1..5], p[5..9], p[9])) else None
  }

  /** Stage 3 (v, a, b jointly): p0 = [v0, 1, *bg], with bg the cubic
      polyfit of the observed wavelengths. */
  function Stage3Guess(v: real, bg: seq<real>): (p: seq<real>)
    ensures |p| == |bg| + 2 && p[0] == v && p[1] == 1.0 && p[2..] == bg
  {
    [v, 1.0] + bg
  }

  /** Stage 3 starts at v0, from the polyfit wavelength solution with a
      flat continuum of height 1. */
  lemma Stage3StartsFromPolyfit(bg: seq<real>)
    requires |bg| == 4
    ensures BindVab(Stage3Guess(V0, bg)) == Some(Arguments(V0, [1.0], bg, FixedWidth))
  {
    assert Stage3Guess(V0, bg)[2..6] == bg;
  }

  /** Stage 4 (on pixels 400..1700): p0 = [v, 1, *p_vab[2:6]]. */
  function Stage4Guess(v: real, pVab: seq<real>): (p: seq<real>)
    ensures |p| == 2 + |Slice(pVab, 2, 6)|
    ensures p[..2] == [v, 1.0] && p[2..] == Slice(pVab, 2, 6)
    ensures |pVab| >= 6 ==> |p| == 6 && p[2..] == pVab[2..6]
  {
    [v, 1.0] + Slice(pVab, 2, 6)
  }

  /** The pixel range of stages 4 to 6. */
  function Stage4Pixels<T>(pixels: seq<T>): (r: seq<T>)
    ensures |pixels| >= 1700 ==> r == pixels[400..1700]
    ensures |pixels| <= 400 ==> r == []
  {
    Slice(pixels, 400, 1700)
  }

  /** Stage 4 keeps the stage-3 wavelength solution but restarts v and a. */
  lemma Stage4KeepsWavelengthSolution(v: real, pVab: seq<real>)
    requires |pVab| == 6
    ensures BindVab(Stage4Guess(v, pVab)) == Some(Arguments(v, [1.0], BindVab(pVab).value.b, FixedWidth))
  {
    assert Stage4Guess(v, pVab)[2..6] == pVab[2..6];
  }

  /** Stage 5 (width free): p0 = [*p_va, 2.2]. */
  function Stage5Guess(pVa: seq<real>): (p: seq<real>)
    ensures |p| == |pVa| + 1 && p[..|pVa|] == pVa && p[|pVa|] == FixedWidth
  {
    pVa + [FixedWidth]
  }

  /** Stage 5 starts exactly at the model stage 4 ended with. */
  lemma Stage5StartsWhereStage4Ended(pVa: seq<real>)
    requires |pVa| == 6
    ensures BindVabs(Stage5Guess(pVa)) == BindVab(pVa)
  {
    assert Stage5Guess(pVa)[2..6] == pVa[2..6];
  }

  /** Stage 6 (cubic continuum): p0 = [*p[:2]] + [0]*3 + [*p[2:]]. */
  function Stage6Guess(p: seq<real>): (q: seq<real>)
    ensures |q| == |p| + 3
    ensures |p| >= 2 ==> q[..2] == p[..2] && q[2..5] == [0.0, 0.0, 0.0] && q[5..] == p[2..]
  {
    Slice(p, 0, 2) + [0.0, 0.0, 0.0] + Slice(p, 2, |p|)
  }

  /** Stage 6 starts at the model stage 5 ended with: the same v, b and s,
      and a continuum whose extra coefficients are zero, so it takes the
      same value at every pixel. */
  lemma Stage6StartsWhereStage5Ended(p: seq<real>, x: real)
    requires |p| == 7
    ensures var before := BindVabs(p).value;
      var after := BindFull(Stage6Guess(p)).value;
      && after.v == before.v && after.b == before.b && after.s == before.s
      && after.a == before.a + [0.0, 0.0, 0.0]
      && Poly(x, after.a) == Poly(x, before.a)
  {
    var q := Stage6Guess(p);
    assert q[1..5] == [p[1]] + [0.0, 0.0, 0.0];
    assert q[5..9] == p[2..6];
    assert q[9] == p[6];
    PolyZeroExtension(x, [p[1]], 3);
    assert Sums.Constant(3, 0.0) == [0.0, 0.0, 0.0];
  }

  // ---------------------------------------------------------------------
  // Aggregation
  // ---------------------------------------------------------------------

  /** rv[isfinite(e_rv)]: the velocities of the orders whose error is
      finite, in order. A single order is kept exactly when its error is
      finite; every kept velocity belongs to such an order, and every such
      order's velocity is kept. */
  function Selected(rv: seq<Float>, erv: seq<Float>): (s: seq<Float>)
    requires |rv| == |erv|
    ensures |s| <= |rv|
    ensures |rv| == 1 ==> (s == [rv[0]] <==> erv[0].IsFinite()) && (s == [] <==> !erv[0].IsFinite())
    ensures forall i :: 0 <= i < |rv| && erv[i].IsFinite() ==> rv[i] in s
    ensures forall x :: x in s ==> exists i :: 0 <= i < |rv| && erv[i].IsFinite() && rv[i] == x
  {
    if rv == [] then []
    else
      var head := if erv[0].IsFinite() then [rv[0]] else [];
      var tail := Selected(rv[1..], erv[1..]);
      assert forall i :: 1 <= i < |rv| ==> rv[i] == rv[1..][i - 1] && erv[i] == erv[1..][i - 1];
      head + tail
  }

  /** Selection distributes over concatenation: the orders are filtered one
      by one, independently of each other. */
  lemma {:induction false} SelectedAppend(rv1: seq<Float>, e1: seq<Float>, rv2: seq<Float>, e2: seq<Float>)
    requires |rv1| == |e1| && |rv2| == |e2|
    ensures Selected(rv1 + rv2, e1 + e2) == Selected(rv1, e1) + Selected(rv2, e2)
    decreases |rv1|
  {
    if rv1 != [] {
      assert (rv1 + rv2)[1..] == rv1[1..] + rv2;
      assert (e1 + e2)[1..] == e1[1..] + e2;
      SelectedAppend(rv1[1..], e1[1..], rv2, e2);
    } else {
      assert rv1 + rv2 == rv2 && e1 + e2 == e2;
    }
  }

  /** Changing the velocity of an order whose error is not finite changes
      nothing that is selected. */
  lemma {:induction false} SelectedIgnoresUnusable(rv: seq<Float>, rv': seq<Float>, erv: seq<Float>)
    requires |rv| == |rv'| == |erv|
    requires forall i :: 0 <= i < |erv| && erv[i].IsFinite() ==> rv[i] == rv'[i]
    ensures Selected(rv, erv) == Selected(rv', erv)
    decreases |rv|
  {
    if rv != [] {
      assert forall i :: 0 <= i < |erv[1..]| && erv[1..][i].IsFinite() ==> rv[1..][i] == rv'[1..][i] by {
        forall i | 0 <= i < |erv[1..]| && erv[1..][i].IsFinite()
          ensures rv[1..][i] == rv'[1..][i]
        {
          assert erv[1..][i] == erv[i + 1];
        }
      }
      SelectedIgnoresUnusable(rv[1..], rv'[1..], erv[1..]);
    }
  }

  /** With every error finite, every order is selected. */
  lemma {:induction false} SelectedAllWhenFinite(rv: seq<Float>, erv: seq<Float>)
    requires |rv| == |erv|
    requires forall i :: 0 <= i < |erv| ==> erv[i].IsFinite()
    ensures Selected(rv, erv) == rv
    decreases |rv|
  {
    if rv != [] {
      assert forall i :: 0 <= i < |erv[1..]| ==> erv[1..][i].IsFinite() by {
        forall i | 0 <= i < |erv[1..]|
          ensures erv[1..][i].IsFinite()
        {
          assert erv[1..][i] == erv[i + 1];
        }
      }
      SelectedAllWhenFinite(rv[1..], erv[1..]);
      assert rv == [rv[0]] + rv[1..];
    }
  }

  predicate AllFinite(xs: seq<Float>) {
    forall i :: 0 <= i < |xs| ==> xs[i].IsFinite()
  }

  function Reals(xs: seq<Float>): (r: seq<real>)
    requires AllFinite(xs)
    ensures |r| == |xs| && forall i :: 0 <= i < |xs| ==> r[i] == xs[i].v
  {
    seq(|xs|, i requires 0 <= i < |xs| => xs[i].v)
  }

  function SquaredDeviations(xs: seq<real>, m: real): (d: seq<real>)
    ensures |d| == |xs| && forall i :: 0 <= i < |xs| ==> d[i] == (xs[i] - m) * (xs[i] - m)
  {
    seq(|xs|, i requires 0 <= i < |xs| => (xs[i] - m) * (xs[i] - m))
  }

  /** np.std squared: the population variance (ddof = 0). */
  function PopVariance(xs: seq<real>): real
    requires |xs| > 0
  {
    Sum(SquaredDeviations(xs, Mean(xs))) / |xs| as real
  }

  /** The aggregate: RV and e_RV squared. */
  datatype Summary = Summary(rv: Float, errSquared: Float)

  /** RV = mean(rv[ii]) and e_RV² = std(rv[ii])² / (count - 1): RV times
      the count is the sum of the selected velocities, and e_RV² times
      (count - 1) * count is the sum of their squared deviations from RV.
      An empty selection gives NaN for both; a single order gives
      0/0 = NaN for the error. A non-finite selected velocity makes both
      NaN. */
  function Aggregate(rv: seq<Float>, erv: seq<Float>): (r: Summary)
    requires |rv| == |erv|
    ensures var s := Selected(rv, erv);
      && (|s| == 0 ==> r.rv.IsNaN() && r.errSquared.IsNaN())
      && (|s| == 1 ==> r.errSquared.IsNaN())
      && (|s| >= 1 && AllFinite(s) ==> r.rv.IsFinite())
      && (!AllFinite(s) ==> r.rv.IsNaN() && r.errSquared.IsNaN())
      && (|s| >= 2 && AllFinite(s) ==> r.errSquared.IsFinite() && r.errSquared.v >= 0.0)
    ensures var s := Selected(rv, erv);
      |s| >= 1 && AllFinite(s) ==> r.rv.v * |s| as real == Sum(Reals(s))
    ensures var s := Selected(rv, erv);
      |s| >= 2 && AllFinite(s) ==>
        ScaledDeviations(r.errSquared.v, Reals(s), r.rv.v)
  {
    var s := Selected(rv, erv);
    if |s| == 0 || !AllFinite(s) then Summary(NaN, NaN)
    else
      var xs := Reals(s);
      var m := Mean(xs);
      if |s| == 1 then Summary(Finite(m), NaN)
      else
        var v := SquaredError(xs);
        Summary(Finite(m), Finite(v))
  }

  /** (count − 1) · count · v is the sum of squared deviations of xs from m. */
  predicate ScaledDeviations(v: real, xs: seq<real>, m: real) {
    v * ((|xs| - 1) * |xs|) as real == Sum(SquaredDeviations(xs, m))
  }

  /** std(xs)² / (count − 1), the squared standard error of the mean of two
      or more values: non-negative, and (count − 1) · count times it is the
      sum of squared deviations from the mean. */
  function SquaredError(xs: seq<real>): (v: real)
    requires |xs| >= 2
    ensures v >= 0.0
    ensures ScaledDeviations(v, xs, Mean(xs))
  {
    var d, n := Sum(SquaredDeviations(xs, Mean(xs))), |xs| as real;
    var v := PopVariance(xs) / (n - 1.0);
    assert v >= 0.0 by {
      NonNegativeVariance(xs);
      DivideNonNegative(PopVariance(xs), n - 1.0);
    }
    assert ScaledDeviations(v, xs, Mean(xs)) by {
      assert PopVariance(xs) == d / n;
      UndoDivisions(d, n, n - 1.0);
      assert ((|xs| - 1) * |xs|) as real == (n - 1.0) * n;
    }
    v
  }

  lemma DivideNonNegative(x: real, y: real)
    requires x >= 0.0 && y > 0.0
    ensures x / y >= 0.0
  {
  }

  /** Dividing by n and then by n - 1 is undone by multiplying by
      (n - 1) * n. */
  lemma UndoDivisions(d: real, n: real, n1: real)
    requires n > 0.0 && n1 > 0.0
    ensures d / n / n1 * (n1 * n) == d
  {
    assert d / n / n1 * n1 == d / n;
  }

  lemma NonNegativeVariance(xs: seq<real>)
    requires |xs| > 0
    ensures PopVariance(xs) >= 0.0
  {
    var d := SquaredDeviations(xs, Mean(xs));
    forall i | 0 <= i < |xs|
      ensures d[i] >= 0.0
    {
      Square(xs[i] - Mean(xs));
    }
    SumNonNegative(d);
  }

  /** Orders whose error is not finite do not influence the result. */
  lemma AggregateIgnoresUnusable(rv: seq<Float>, rv': seq<Float>, erv: seq<Float>)
    requires |rv| == |rv'| == |erv|
    requires forall i :: 0 <= i < |erv| && erv[i].IsFinite() ==> rv[i] == rv'[i]
    ensures Aggregate(rv, erv) == Aggregate(rv', erv)
  {
    SelectedIgnoresUnusable(rv, rv', erv);
  }

  /** Aggregating the selected velocities again, now all with finite
      errors, gives the same result: selection is the only filtering the
      aggregate does. */
  lemma AggregateOfSelection(rv: seq<Float>, erv: seq<Float>, erv': seq<Float>)
    requires |rv| == |erv| && |erv'| == |Selected(rv, erv)|
    requires forall i :: 0 <= i < |erv'| ==> erv'[i].IsFinite()
    ensures Aggregate(Selected(rv, erv), erv') == Aggregate(rv, erv)
  {
    SelectedAllWhenFinite(Selected(rv, erv), erv');
  }

  /** A square is never negative. */
  lemma Square(x: real)
    ensures x * x >= 0.0
  {
  }

  /** When every usable order reports the same velocity c, RV is c and,
      with at least two of them, the error vanishes. */
  lemma AggregateOfAgreeingOrders(rv: seq<Float>, erv: seq<Float>, c: real)
    requires |rv| == |erv|
    requires |Selected(rv, erv)| >= 1
    requires forall i :: 0 <= i < |Selected(rv, erv)| ==> Selected(rv, erv)[i] == Finite(c)
    ensures Aggregate(rv, erv).rv == Finite(c)
    ensures |Selected(rv, erv)| >= 2 ==> Aggregate(rv, erv).errSquared == Finite(0.0)
  {
    var s := Selected(rv, erv);
    assert AllFinite(s);
    var xs := Reals(s);
    MeanOfConstant(xs, c);
    if |s| >= 2 {
      NoSpreadNoVariance(xs, c);
      assert PopVariance(xs) / (|s| - 1) as real == 0.0;
    }
  }

  lemma NoSpreadNoVariance(xs: seq<real>, c: real)
    requires |xs| > 0 && forall i :: 0 <= i < |xs| ==> xs[i] == c
    ensures PopVariance(xs) == 0.0
  {
    MeanOfConstant(xs, c);
    var d := SquaredDeviations(xs, c);
    forall i | 0 <= i < |xs|
      ensures d[i] == 0.0
    {
      assert d[i] == (c - c) * (c - c);
    }
    assert d == Sums.Constant(|xs|, 0.0);
    SumConstant(|xs|, 0.0);
  }

  lemma MeanOfConstant(xs: seq<real>, c: real)
    requires |xs| > 0 && forall i :: 0 <= i < |xs| ==> xs[i] == c
    ensures Mean(xs) == c
  {
    var n := |xs| as real;
    assert xs == Sums.Constant(|xs|, c);
    SumConstant(|xs|, c);
    assert Mean(xs) == n * c / n;
  }

  /** Two orders, both usable: RV is their midpoint and e_RV² is a quarter
      of their squared difference. */
  lemma TwoOrders(r1: real, r2: real, e1: real, e2: real)
    ensures Aggregate([Finite(r1), Finite(r2)], [Finite(e1), Finite(e2)])
      == Summary(Finite((r1 + r2) / 2.0), Finite((r1 - r2) * (r1 - r2) / 4.0))
  {
    var rv, erv := [Finite(r1), Finite(r2)], [Finite(e1), Finite(e2)];
    SelectedAllWhenFinite(rv, erv);
    var r := Aggregate(rv, erv);
    var xs := Reals(rv);
    assert xs == [r1, r2];
    assert Sum(xs) == r1 + r2 by {
      assert xs[1..] == [r2];
      assert Sum([r2]) == r2 + Sum([r2][1..]);
      assert [r2][1..] == [];
    }
    var m := r.rv.v;
    assert m * 2.0 == r1 + r2;
    var d := SquaredDeviations(xs, m);
    assert Sum(d) == (r1 - m) * (r1 - m) + (r2 - m) * (r2 - m) by {
      assert d[1..][1..] == [];
      assert Sum(d[1..]) == d[1] + Sum(d[1..][1..]);
    }
    MidpointDeviations(r1, r2, m);
    assert r.errSquared.v * 2.0 == (r1 - r2) * (r1 - r2) / 2.0;
  }

  /** The squared deviations of two values from their midpoint add up to
      half their squared difference. */
  lemma MidpointDeviations(r1: real, r2: real, m: real)
    requires m * 2.0 == r1 + r2
    ensures (r1 - m) * (r1 - m) + (r2 - m) * (r2 - m) == (r1 - r2) * (r1 - r2) / 2.0
  {
    assert r1 - m == (r1 - r2) / 2.0;
    assert r2 - m == (r2 - r1) / 2.0;
  }

  // ---------------------------------------------------------------------
  // Output row
  // ---------------------------------------------------------------------

  /** `sum(zip(a, b), ())`: a[0], b[0], a[1], b[1], ... */
  function Interleave<T>(a: seq<T>, b: seq<T>): (r: seq<T>)
    requires |a| == |b|
    ensures |r| == 2 * |a|
    ensures forall i :: 0 <= i < |a| ==> r[2 * i] == a[i] && r[2 * i + 1] == b[i]
  {
    if a == [] then []
    else
      var rest := Interleave(a[1..], b[1..]);
      var r := [a[0], b[0]] + rest;
      assert forall i :: 1 <= i < |a| ==> r[2 * i] == rest[2 * (i - 1)] && r[2 * i + 1] == rest[2 * (i - 1) + 1];
      r
  }

  function Evens<T>(r: seq<T>): (e: seq<T>)
    ensures |e| == |r| / 2
  {
    seq(|r| / 2, i requires 0 <= i < |r| / 2 => r[2 * i])
  }

  function Odds<T>(r: seq<T>): (o: seq<T>)
    ensures |o| == |r| / 2
  {
    seq(|r| / 2, i requires 0 <= i < |r| / 2 => r[2 * i + 1])
  }

  /** Taking every other entry undoes the interleaving. */
  lemma DeinterleaveRoundTrip<T>(a: seq<T>, b: seq<T>)
    requires |a| == |b|
    ensures Evens(Interleave(a, b)) == a && Odds(Interleave(a, b)) == b
  {
  }

  /** The line written per observation: bjd, RV, e_RV, then each order's
      rv and e_rv in turn. */
  function OutputRow(bjd: Float, rvTotal: Float, eRvTotal: Float, rv: seq<Float>, erv: seq<Float>): (row: seq<Float>)
    requires |rv| == |erv|
    ensures |row| == 3 + 2 * |rv|
    ensures row[..3] == [bjd, rvTotal, eRvTotal]
    ensures forall i :: 0 <= i < |rv| ==> row[3 + 2 * i] == rv[i] && row[4 + 2 * i] == erv[i]
  {
    var tail := Interleave(rv, erv);
    assert forall i :: 0 <= i < |rv| ==> tail[2 * i] == rv[i] && tail[2 * i + 1] == erv[i];
    [bjd, rvTotal, eRvTotal] + tail
  }

  /** A reader of the row gets every order's values back. */
  lemma OutputRowParses(bjd: Float, rvTotal: Float, eRvTotal: Float, rv: seq<Float>, erv: seq<Float>)
    requires |rv| == |erv|
    ensures var row := OutputRow(bjd, rvTotal, eRvTotal, rv, erv);
      row[0] == bjd && row[1] == rvTotal && row[2] == eRvTotal
      && Evens(row[3..]) == rv && Odds(row[3..]) == erv
  {
    var row := OutputRow(bjd, rvTotal, eRvTotal, rv, erv);
    assert row[3..] == Interleave(rv, erv);
    DeinterleaveRoundTrip(rv, erv);
  }
}

=== FILE: parameters.dfy ===
/**
 The parameter bookkeeping of `model.fit` (model.py): six parameter groups
 (rv, continuum, wavelength, IP, telluric, background), each split into a
 free part that the solver varies and a fixed part that it does not. The
 free parts are concatenated into one flat vector p0; contiguous slices
 sv, sa, sb, ss, st, sc cut the solver's vector back into groups, and each
 group is handed to the evaluator as its free part followed by its fixed part.
 The least-squares solver itself is not modelled.
 */
module Parameters {

  /** rv, norm, wave, ip, atm, bkg */
  const GroupCount: nat := 6

  /** The position of the background group (coeff_bkg) among the six */
  const BackgroundGroup: nat := 5

  /** A half-open index range, Python's slice(start, stop) */
  datatype Range = Range(start: nat, stop: nat)

  /** The chain of slices of the given lengths, the first starting at
      `from` and each next one starting where the previous stops. */
  function Chain(groups: seq<seq<real>>, from: nat): (rs: seq<Range>)
    ensures |rs| == |groups|
    ensures |rs| > 0 ==> rs[0].start == from
    ensures forall k :: 0 <= k < |rs| ==> from <= rs[k].start <= rs[k].stop && rs[k].stop - rs[k].start == |groups[k]|
    decreases |groups|
  {
    if |groups| == 0 then []
    else [Range(from, from + |groups[0]|)] + Chain(groups[1..], from + |groups[0]|)
  }

  /** The concatenation of the groups: p0 = [*par_rv, *par_norm, ...]. */
  function Flatten(groups: seq<seq<real>>): seq<real>
    decreases |groups|
  {
    if |groups| == 0 then [] else groups[0] + Flatten(groups[1..])
  }

  /** The slices sv, sa, sb, ss, st, sc of model.fit */
  function GroupSlices(groups: seq<seq<real>>): (rs: seq<Range>)
    ensures |rs| == |groups|
  {
    Chain(groups, 0)
  }

  /** Slice k of the chain, taken from the flattened groups behind a prefix
      of length `from`, is group k. */
  lemma {:induction false} ChainSliceRecovers(groups: seq<seq<real>>, from: nat, prefix: seq<real>, k: nat)
    requires |prefix| == from && k < |groups|
    ensures Chain(groups, from)[k].stop <= |prefix + Flatten(groups)|
    ensures (prefix + Flatten(groups))[Chain(groups, from)[k].start..Chain(groups, from)[k].stop] == groups[k]
    decreases k
  {
    var rs := Chain(groups, from);
    var flat := prefix + Flatten(groups);
    var prefix' := prefix + groups[0];
    assert flat == prefix' + Flatten(groups[1..]);
    if k == 0 {
      assert rs[0] == Range(from, from + |groups[0]|);
      assert flat[from..from + |groups[0]|] == groups[0];
    } else {
      var tail := Chain(groups[1..], from + |groups[0]|);
      assert rs[1..] == tail;
      assert rs[k] == tail[k - 1];
      ChainSliceRecovers(groups[1..], from + |groups[0]|, prefix', k - 1);
    }
  }

  /** The last slice of the chain stops at the end of the flattened groups. */
  lemma {:induction false} ChainLastStop(groups: seq<seq<real>>, from: nat)
    requires |groups| > 0
    ensures Chain(groups, from)[|groups| - 1].stop == from + |Flatten(groups)|
    decreases |groups|
  {
    var rs := Chain(groups, from);
    assert |Flatten(groups)| == |groups[0]| + |Flatten(groups[1..])|;
    if |groups| > 1 {
      var tail := Chain(groups[1..], from + |groups[0]|);
      assert rs[|groups| - 1] == tail[|groups| - 2];
      ChainLastStop(groups[1..], from + |groups[0]|);
    } else {
      assert Flatten(groups[1..]) == [];
      assert rs[0].stop == from + |groups[0]|;
    }
  }

  /** The slices are contiguous, disjoint, cover [0, |p0|) in group order,
      and each slice of p0 is exactly the free group it was built from. */
  lemma SlicesPartitionInitialVector(free: seq<seq<real>>)
    ensures var rs := GroupSlices(free);
      && (|rs| > 0 ==> rs[0].start == 0 && rs[|rs| - 1].stop == |Flatten(free)|)
      && (|rs| == 0 ==> Flatten(free) == [])
      && (forall k :: 0 <= k < |rs| ==> rs[k].start <= rs[k].stop <= |Flatten(free)|)
      && (forall k :: 0 <= k < |rs| ==> Flatten(free)[rs[k].start..rs[k].stop] == free[k])
  {
    var rs := GroupSlices(free);
    assert [] + Flatten(free) == Flatten(free);
    forall k | 0 <= k < |rs|
      ensures rs[k].start <= rs[k].stop <= |Flatten(free)|
      ensures Flatten(free)[rs[k].start..rs[k].stop] == free[k]
    {
      ChainSliceRecovers(free, 0, [], k);
    }
    if |rs| > 0 {
      ChainLastStop(free, 0);
    }
  }

  /** Each slice starts where the previous one stops. */
  lemma SlicesContiguous(free: seq<seq<real>>, k: nat)
    requires k + 1 < |free|
    ensures GroupSlices(free)[k].stop == GroupSlices(free)[k + 1].start
  {
    ChainContiguous(free, 0, k);
  }

  lemma {:induction false} ChainContiguous(groups: seq<seq<real>>, from: nat, k: nat)
    requires k + 1 < |groups|
    ensures Chain(groups, from)[k].stop == Chain(groups, from)[k + 1].start
    decreases k
  {
    var rs := Chain(groups, from);
    var tail := Chain(groups[1..], from + |groups[0]|);
    assert rs[1..] == tail;
    if k > 0 {
      ChainContiguous(groups[1..], from + |groups[0]|, k - 1);
      assert rs[k] == tail[k - 1] && rs[k + 1] == tail[k];
    }
  }

  /** Two different groups' slices never share an index. */
  lemma {:induction false} SlicesDisjoint(free: seq<seq<real>>, k1: nat, k2: nat)
    requires k1 < k2 < |free|
    ensures GroupSlices(free)[k1].stop <= GroupSlices(free)[k2].start
    decreases k2 - k1
  {
    SlicesContiguous(free, k2 - 1);
    if k2 > k1 + 1 {
      SlicesDisjoint(free, k1, k2 - 1);
    }
  }

  /** What the evaluator receives: each group is the solver's slice
      followed by the fixed tuple of that group. */
  function Reassemble(params: seq<real>, rs: seq<Range>, fixed: seq<seq<real>>): (args: seq<seq<real>>)
    requires |rs| == |fixed|
    requires forall k :: 0 <= k < |rs| ==> rs[k].start <= rs[k].stop <= |params|
    ensures |args| == |fixed|
  {
    seq(|rs|, k requires 0 <= k < |rs| => params[rs[k].start..rs[k].stop] + fixed[k])
  }

  /** Reassembling p0 itself gives every group as its free part followed by
      its fixed part: nothing is reordered or lost. */
  lemma ReassembleInitialVector(free: seq<seq<real>>, fixed: seq<seq<real>>)
    requires |free| == |fixed|
    ensures var rs := GroupSlices(free);
      && (forall k :: 0 <= k < |rs| ==> rs[k].start <= rs[k].stop <= |Flatten(free)|)
      && Reassemble(Flatten(free), rs, fixed) == seq(|free|, k requires 0 <= k < |free| => free[k] + fixed[k])
  {
    SlicesPartitionInitialVector(free);
    var rs := GroupSlices(free);
    var lhs := Reassemble(Flatten(free), rs, fixed);
    var rhs := seq(|free|, k requires 0 <= k < |free| => free[k] + fixed[k]);
    assert forall k :: 0 <= k < |free| ==> lhs[k] == rhs[k];
  }

  /** One call of model.fit: free and fixed values for each of the six
      groups; the rv group holds at most one value on either side. */
  datatype FitSetup = FitSetup(free: seq<seq<real>>, fixed: seq<seq<real>>)

  predicate ValidSetup(s: FitSetup) {
    && |s.free| == GroupCount && |s.fixed| == GroupCount
    && |s.free[0]| <= 1 && |s.fixed[0]| <= 1
  }

  /** The rv group is unpacked into the evaluator's single rv argument, so
      the call binds only when rv is either free or fixed, not both and not
      neither. */
  predicate RvBinds(s: FitSetup)
    requires ValidSetup(s)
  {
    |s.free[0]| + |s.fixed[0]| == 1
  }

  /** The evaluator's arguments for the solver's current vector: group k is
      the solver's entries in group k's slice followed by the fixed tuple of
      group k. */
  function EvaluatorArguments(s: FitSetup, params: seq<real>): (args: seq<seq<real>>)
    requires ValidSetup(s)
    requires |params| == |Flatten(s.free)|
    ensures |args| == GroupCount
    ensures forall k :: 0 <= k < GroupCount ==> |args[k]| == |s.free[k]| + |s.fixed[k]|
    ensures forall k :: 0 <= k < GroupCount ==> GroupSlices(s.free)[k].start <= GroupSlices(s.free)[k].stop <= |params|
    ensures forall k :: 0 <= k < GroupCount ==>
      args[k] == params[GroupSlices(s.free)[k].start..GroupSlices(s.free)[k].stop] + s.fixed[k]
    ensures params == Flatten(s.free) ==> forall k :: 0 <= k < GroupCount ==> args[k] == s.free[k] + s.fixed[k]
  {
    SlicesPartitionInitialVector(s.free);
    ReassembleInitialVector(s.free, s.fixed);
    Reassemble(params, GroupSlices(s.free), s.fixed)
  }

  /** When rv binds, the evaluator's rv is the free value if rv is fitted
      and the fixed value otherwise. */
  lemma RvArgument(s: FitSetup, params: seq<real>)
    requires ValidSetup(s) && RvBinds(s)
    requires |params| == |Flatten(s.free)|
    ensures |EvaluatorArguments(s, params)[0]| == 1
    ensures |s.free[0]| == 1 ==> EvaluatorArguments(s, params)[0][0] == params[0]
    ensures |s.fixed[0]| == 1 ==> EvaluatorArguments(s, params)[0][0] == s.fixed[0][0]
  {
    SlicesPartitionInitialVector(s.free);
  }

  /** par_rv = (*params[sv], *diag(cov)[sv]): the fitted rv and its
      variance when rv is free, nothing when it is fixed. */
  function RvReport(s: FitSetup, params: seq<real>, variances: seq<real>): (r: seq<real>)
    requires ValidSetup(s)
    requires |params| == |variances| == |Flatten(s.free)|
    ensures |s.free[0]| == 1 ==> r == [params[0], variances[0]]
    ensures |s.free[0]| == 0 ==> r == []
  {
    SlicesPartitionInitialVector(s.free);
    var sv := GroupSlices(s.free)[0];
    params[sv.start..sv.stop] + variances[sv.start..sv.stop]
  }
}

=== FILE: polynomials.dfy ===
/**
 The polynomial helpers of the forward model (model.py `poly` and `pade`):
 coefficient lists are in ASCENDING order, a[0] + a[1] x + a[2] x^2 + ...,
 evaluated by numpy's polyval on the reversed list.
 */
module Polynomials {
  import opened Values
  import opened Slices
  import opened Sums

  /** numpy's polyval: Horner's scheme on a list ordered from the highest
      power down. */
  function Horner(p: seq<real>, x: real): real {
    if |p| == 0 then 0.0 else Horner(p[..|p| - 1], x) * x + p[|p| - 1]
  }

  /** poly(x, a) == polyval(a[::-1], x): Horner's scheme on the reversed
      coefficients evaluates the ascending sum of a[i] * x^i. */
  function Poly(x: real, a: seq<real>): (r: real)
    ensures r == PowerSum(x, a)
  {
    HornerReversedIsPowerSum(x, a);
    Horner(Reverse(a), x)
  }

  function Power(x: real, k: nat): real {
    if k == 0 then 1.0 else x * Power(x, k - 1)
  }

  /** The table 1, x, x^2, ..., x^(n-1) */
  function Powers(x: real, n: nat): (pw: seq<real>)
    ensures |pw| == n
  {
    seq(n, k requires 0 <= k < n => Power(x, k))
  }

  /** Reference definition of an ascending polynomial: the sum of a[i] * x^i,
      as the dot product of the coefficients with the power table. */
  function PowerSum(x: real, a: seq<real>): real {
    Dot(a, Powers(x, |a|))
  }

  /** The empty polynomial is zero. */
  lemma PolyEmpty(x: real)
    ensures Poly(x, []) == 0.0
  {
  }

  /** Peeling the constant coefficient: poly(x, a0::r) == a0 + x * poly(x, r). */
  lemma PolyCons(x: real, a0: real, r: seq<real>)
    ensures Poly(x, [a0] + r) == a0 + x * Poly(x, r)
  {
    PowerSumCons(x, a0, r);
  }

  /** The Horner step on the reversed list: the constant coefficient is the
      last one Horner's scheme adds. */
  lemma HornerCons(x: real, a0: real, r: seq<real>)
    ensures Horner(Reverse([a0] + r), x) == a0 + x * Horner(Reverse(r), x)
  {
    var p := Reverse([a0] + r);
    assert p[..|p| - 1] == Reverse(r);
  }

  /** The same peeling for the reference definition: dropping the constant
      coefficient shifts the power table by one, which scales it by x. */
  lemma PowerSumCons(x: real, a0: real, r: seq<real>)
    ensures PowerSum(x, [a0] + r) == a0 + x * PowerSum(x, r)
  {
    var a := [a0] + r;
    var pw := Powers(x, |a|);
    assert a[1..] == r;
    assert pw[0] == 1.0;
    assert forall i :: 0 <= i < |r| ==> pw[1..][i] == x * Powers(x, |r|)[i];
    DotScaled(r, pw[1..], Powers(x, |r|), x);
  }

  /** Horner's scheme on the reversed coefficients evaluates the sum of
      a[i] * x^i. */
  lemma {:induction false} HornerReversedIsPowerSum(x: real, a: seq<real>)
    ensures Horner(Reverse(a), x) == PowerSum(x, a)
    decreases |a|
  {
    if |a| > 0 {
      assert a == [a[0]] + a[1..];
      HornerCons(x, a[0], a[1..]);
      PowerSumCons(x, a[0], a[1..]);
      HornerReversedIsPowerSum(x, a[1..]);
    }
  }

  /** poly evaluates the sum of a[i] * x^i. */
  lemma PolyIsPowerSum(x: real, a: seq<real>)
    ensures Poly(x, a) == PowerSum(x, a)
  {
  }

  /** Appending zero higher-order coefficients does not change the polynomial. */
  lemma PolyZeroExtension(x: real, a: seq<real>, k: nat)
    ensures Poly(x, a + seq(k, _ => 0.0)) == Poly(x, a)
  {
    PowerSumZeroExtension(x, a, k);
    PolyIsPowerSum(x, a + seq(k, _ => 0.0));
    PolyIsPowerSum(x, a);
  }

  lemma PowerSumZeroExtension(x: real, a: seq<real>, k: nat)
    ensures PowerSum(x, a + seq(k, _ => 0.0)) == PowerSum(x, a)
  {
    var pw := Powers(x, |a| + k);
    assert pw[..|a|] == Powers(x, |a|);
    DotZeroTail(a, seq(k, _ => 0.0), pw);
  }

  /** Every polynomial takes its constant coefficient at x = 0. */
  lemma PolyAtZero(a: seq<real>)
    requires |a| > 0
    ensures Poly(0.0, a) == a[0]
  {
    assert a == [a[0]] + a[1..];
    PolyCons(0.0, a[0], a[1..]);
  }

  /** model.py `poly` as numpy runs it: the loop of polyval over a[::-1].
      Its result is the ascending polynomial sum a[0] + a[1] x + ... */
  method EvalPoly(x: real, a: seq<real>) returns (y: real)
    ensures y == PowerSum(x, a)
  {
    var p := Reverse(a);
    y := 0.0;
    var i := 0;
    while i < |p|
      invariant 0 <= i <= |p|
      invariant y == Horner(p[..i], x)
    {
      assert p[..i + 1][..i] == p[..i];
      y := y * x + p[i];
      i := i + 1;
    }
    assert p[..|p|] == p;
    HornerReversedIsPowerSum(x, a);
  }

  /** model.py `pade`: the rational function poly(x, a) / (1 + x * poly(x, b)).
      The denominator's constant coefficient is fixed to 1; a zero denominator
      is numpy's non-finite result, modelled as None. */
  function Pade(x: real, a: seq<real>, b: seq<real>): (r: Option<real>)
    ensures r.None? <==> PowerSum(x, [1.0] + b) == 0.0
    ensures r.Some? ==> r.value * PowerSum(x, [1.0] + b) == PowerSum(x, a)
    ensures b == [] ==> r == Some(PowerSum(x, a))
  {
    PowerSumCons(x, 1.0, b);
    PolyIsPowerSum(x, b);
    PolyIsPowerSum(x, a);
    var den := 1.0 + x * Poly(x, b);
    if den == 0.0 then None else Some(Poly(x, a) / den)
  }

  /** `pade` as numpy evaluates it: at a pole the division raises nothing and
      yields an infinity, or NaN when the numerator vanishes there too. */
  function PadeAsWritten(x: real, a: seq<real>, b: seq<real>): (r: Float)
    ensures Pade(x, a, b).Some? ==> r == Finite(Pade(x, a, b).value)
    ensures Pade(x, a, b).None? ==> !r.IsFinite()
    ensures Pade(x, a, b).None? ==> (r.IsNaN() <==> PowerSum(x, a) == 0.0)
  {
    PolyIsPowerSum(x, a);
    Divide(Poly(x, a), 1.0 + x * Poly(x, b))
  }

  /** With no denominator coefficients, pade reduces to poly. */
  lemma PadeWithoutDenominator(x: real, a: seq<real>)
    ensures Pade(x, a, []) == Some(Poly(x, a))
  {
    PolyIsPowerSum(x, a);
  }
}

=== FILE: slices.dfy ===
/**
 Python's slice semantics `s[start:stop]`: a negative bound counts from the
 end, bounds are clamped to the sequence, and a reversed range is empty.
 */
module Slices {

  /** Normalisation of one slice bound against a sequence of length n */
  function Bound(i: int, n: nat): (r: nat)
    ensures r <= n
    ensures 0 <= i <= n ==> r == i
    ensures -(n as int) <= i < 0 ==> r == n + i
    ensures i > n ==> r == n
    ensures i < -(n as int) ==> r == 0
  {
    if i < 0 then (if n + i < 0 then 0 else n + i) else if i > n then n else i
  }

  /** s[start:stop] */
  function Slice<T>(s: seq<T>, start: int, stop: int): (r: seq<T>)
    ensures Bound(start, |s|) <= Bound(stop, |s|) ==> r == s[Bound(start, |s|)..Bound(stop, |s|)]
    ensures Bound(start, |s|) > Bound(stop, |s|) ==> r == []
  {
    var lo := Bound(start, |s|);
    var hi := Bound(stop, |s|);
    if lo <= hi then s[lo..hi] else []
  }

  /** `s[::-1]` */
  function Reverse<T>(s: seq<T>): (r: seq<T>)
    ensures |r| == |s|
    ensures forall i :: 0 <= i < |s| ==> r[i] == s[|s| - 1 - i]
  {
    seq(|s|, i requires 0 <= i < |s| => s[|s| - 1 - i])
  }

  /** Reversing moves the head to the end. */
  lemma ReverseCons<T>(s: seq<T>)
    requires |s| > 0
    ensures Reverse(s) == Reverse(s[1..]) + [s[0]]
  {
    var r, t := Reverse(s), Reverse(s[1..]) + [s[0]];
    assert |r| == |t|;
    forall i | 0 <= i < |s|
      ensures r[i] == t[i]
    {
      if i < |s| - 1 {
        assert t[i] == s[1..][|s| - 2 - i];
      }
    }
  }
}

=== FILE: sums.dfy ===
/**
 Finite sums and dot products over real sequences, with the algebraic facts
 the kernel, convolution and aggregation proofs rely on.
 */
module Sums {

  /** numpy's sum of a one-dimensional array */
  function Sum(s: seq<real>): real {
    if |s| == 0 then 0.0 else s[0] + Sum(s[1..])
  }

  /** numpy's dot of two vectors of equal length */
  function Dot(a: seq<real>, b: seq<real>): real
    requires |a| == |b|
  {
    if |a| == 0 then 0.0 else a[0] * b[0] + Dot(a[1..], b[1..])
  }

  /** numpy's mean of a non-empty array: n copies of it sum to the total. */
  function Mean(xs: seq<real>): (m: real)
    requires |xs| > 0
    ensures m * |xs| as real == Sum(xs)
  {
    Sum(xs) / |xs| as real
  }

  /** The constant sequence of length n */
  function Constant(n: nat, c: real): (r: seq<real>)
    ensures |r| == n
    ensures forall i :: 0 <= i < n ==> r[i] == c
  {
    seq(n, _ => c)
  }

  lemma {:induction false} SumAppend(a: seq<real>, b: seq<real>)
    ensures Sum(a + b) == Sum(a) + Sum(b)
    decreases |a|
  {
    if |a| == 0 {
      assert a + b == b;
    } else {
      assert (a + b)[1..] == a[1..] + b;
      SumAppend(a[1..], b);
    }
  }

  /** Sum of the first k+1 entries is the sum of the first k plus entry k. */
  lemma SumSnoc(s: seq<real>, k: nat)
    requires k < |s|
    ensures Sum(s[..k+1]) == Sum(s[..k]) + s[k]
  {
    assert s[..k+1] == s[..k] + [s[k]];
    SumAppend(s[..k], [s[k]]);
  }

  /** Scaling every entry scales the sum. */
  lemma {:induction false} SumScale(s: seq<real>, c: real)
    ensures Sum(seq(|s|, i requires 0 <= i < |s| => c * s[i])) == c * Sum(s)
    decreases |s|
  {
    var t := seq(|s|, i requires 0 <= i < |s| => c * s[i]);
    if |s| > 0 {
      var t' := seq(|s[1..]|, i requires 0 <= i < |s[1..]| => c * s[1..][i]);
      assert forall i :: 0 <= i < |t'| ==> t[1..][i] == t'[i];
      assert t[1..] == t';
      SumScale(s[1..], c);
    }
  }

  /** A sum of non-negative entries is non-negative, and it is zero only if
      every entry is zero. */
  lemma {:induction false} SumNonNegative(s: seq<real>)
    requires forall i :: 0 <= i < |s| ==> s[i] >= 0.0
    ensures Sum(s) >= 0.0
    ensures Sum(s) == 0.0 <==> forall i :: 0 <= i < |s| ==> s[i] == 0.0
    decreases |s|
  {
    if |s| > 0 {
      SumNonNegative(s[1..]);
      if Sum(s) == 0.0 {
        forall i | 0 <= i < |s| ensures s[i] == 0.0 {
          if i > 0 { assert s[i] == s[1..][i - 1]; }
        }
      }
    }
  }

  /** The sum of a constant sequence */
  lemma {:induction false} SumConstant(n: nat, c: real)
    ensures Sum(Constant(n, c)) == n as real * c
    decreases n
  {
    if n > 0 {
      assert Constant(n, c)[1..] == Constant(n - 1, c);
      SumConstant(n - 1, c);
    }
  }

  /** Dotting with a constant vector scales the sum. */
  lemma {:induction false} DotConstant(a: seq<real>, c: real)
    ensures Dot(a, Constant(|a|, c)) == c * Sum(a)
    decreases |a|
  {
    if |a| > 0 {
      assert Constant(|a|, c)[1..] == Constant(|a| - 1, c);
      DotConstant(a[1..], c);
    }
  }

  /** Dotting with an affine image w of u distributes:
      sum_k a[k] * p * (u[k] - q) == p * (dot(a, u) - q * sum(a)). */
  lemma {:induction false} DotAffine(a: seq<real>, u: seq<real>, w: seq<real>, p: real, q: real)
    requires |a| == |u| == |w|
    requires forall k :: 0 <= k < |u| ==> w[k] == p * (u[k] - q)
    ensures Dot(a, w) == p * (Dot(a, u) - q * Sum(a))
    decreases |a|
  {
    if |a| > 0 {
      DotAffine(a[1..], u[1..], w[1..], p, q);
      Distribute(a[0], u[0], Dot(a[1..], u[1..]), Sum(a[1..]), p, q);
    }
  }

  /** The ring identity behind one step of DotAffine. */
  lemma Distribute(a0: real, u0: real, d: real, t: real, p: real, q: real)
    ensures a0 * (p * (u0 - q)) + p * (d - q * t) == p * ((a0 * u0 + d) - q * (a0 + t))
  {
  }

  /** Dotting with the unit vector that holds 1 at position h picks entry h. */
  lemma {:induction false} DotUnit(a: seq<real>, b: seq<real>, h: nat)
    requires |a| == |b| && h < |a|
    requires forall i :: 0 <= i < |a| ==> a[i] == (if i == h then 1.0 else 0.0)
    ensures Dot(a, b) == b[h]
    decreases |a|
  {
    if h == 0 {
      assert forall i :: 0 <= i < |a[1..]| ==> a[1..][i] == 0.0;
      DotZero(a[1..], b[1..]);
    } else {
      DotUnit(a[1..], b[1..], h - 1);
    }
  }

  lemma {:induction false} DotZero(a: seq<real>, b: seq<real>)
    requires |a| == |b|
    requires forall i :: 0 <= i < |a| ==> a[i] == 0.0
    ensures Dot(a, b) == 0.0
    decreases |a|
  {
    if |a| > 0 {
      DotZero(a[1..], b[1..]);
    }
  }

  /** Dotting with a table scaled entrywise by x scales the dot product by x. */
  lemma {:induction false} DotScaled(r: seq<real>, u: seq<real>, v: seq<real>, x: real)
    requires |r| == |u| == |v|
    requires forall i :: 0 <= i < |u| ==> u[i] == x * v[i]
    ensures Dot(r, u) == x * Dot(r, v)
    decreases |r|
  {
    if |r| > 0 {
      DotScaled(r[1..], u[1..], v[1..], x);
      ScaleFactor(x, r[0], v[0], Dot(r[1..], v[1..]));
    }
  }

  lemma ScaleFactor(x: real, c: real, v0: real, d: real)
    ensures c * (x * v0) + x * d == x * (c * v0 + d)
  {
  }

  /** Trailing zero coefficients contribute nothing to a dot product. */
  lemma {:induction false} DotZeroTail(a: seq<real>, z: seq<real>, u: seq<real>)
    requires |u| == |a| + |z|
    requires forall i :: 0 <= i < |z| ==> z[i] == 0.0
    ensures Dot(a + z, u) == Dot(a, u[..|a|])
    decreases |a|
  {
    if |a| == 0 {
      assert a + z == z;
      DotZero(z, u);
    } else {
      assert (a + z)[1..] == a[1..] + z;
      assert u[..|a|][1..] == u[1..][..|a| - 1];
      DotZeroTail(a[1..], z, u[1..]);
    }
  }

  /** Shifting every entry by c shifts the sum by n * c. */
  lemma {:induction false} SumShift(s: seq<real>, c: real)
    ensures Sum(seq(|s|, i requires 0 <= i < |s| => s[i] - c)) == Sum(s) - |s| as real * c
    decreases |s|
  {
    var t := seq(|s|, i requires 0 <= i < |s| => s[i] - c);
    if |s| > 0 {
      var t' := seq(|s[1..]|, i requires 0 <= i < |s[1..]| => s[1..][i] - c);
      assert forall i :: 0 <= i < |t'| ==> t[1..][i] == t'[i];
      assert t[1..] == t';
      SumShift(s[1..], c);
    }
  }
}

=== FILE: values.dfy ===
/**
 Shared value types of the model: an optional result for operations that
 fail on some inputs, and a double-precision value with its non-finite cases.
 */
module Values {

  /** A value that may be absent; `None` stands for the source's exceptions
      and for results that would be non-finite. */
  datatype Option<+T> = None | Some(value: T)

  /** A double as far as this model needs it: a finite real, an infinity or NaN.
      Rounding is not modelled; finite values are exact reals. */
  datatype Float = Finite(v: real) | Inf(negative: bool) | NaN {

    /** numpy's isfinite */
    predicate IsFinite() {
      Finite?
    }

    /** numpy's isnan */
    predicate IsNaN() {
      NaN?
    }
  }

  /** Multiplication of a double by a positive constant: finite values scale,
      infinities keep their sign and NaN stays NaN. */
  function ScaleBy(x: Float, c: real): (r: Float)
    requires c > 0.0
    ensures r.IsFinite() <==> x.IsFinite()
    ensures r.IsNaN() <==> x.IsNaN()
    ensures x.IsFinite() ==> r.v / c == x.v
  {
    match x
    case Finite(v) => Finite(v * c)
    case Inf(neg) => Inf(neg)
    case NaN => NaN
  }

  /** numpy's float division x / d. A zero divisor raises nothing: 0/0 is
      NaN and any other x gives an infinity with the sign of x (the zero
      divisor taken as +0.0, as an exact cancellation yields). */
  function Divide(x: real, d: real): (r: Float)
    ensures r.IsFinite() <==> d != 0.0
    ensures r.IsFinite() ==> r.v * d == x
    ensures d == 0.0 ==> (r.IsNaN() <==> x == 0.0)
    ensures d == 0.0 && x != 0.0 ==> r == Inf(x < 0.0)
  {
    if d != 0.0 then Finite(x / d)
    else if x == 0.0 then NaN
    else Inf(x < 0.0)
  }

  /** numpy's division of two doubles, elementwise as in `spec /= blaze`:
      NaN in gives NaN out, inf/inf and 0/0 are NaN, a finite value over an
      infinity is 0, and an infinity over a finite value keeps its sign,
      flipped by a negative divisor (a zero divisor taken as +0.0). */
  function DivideFloats(x: Float, y: Float): (r: Float)
    ensures x.Finite? && y.Finite? ==> r == Divide(x.v, y.v)
    ensures r.IsNaN() <==>
      x.IsNaN() || y.IsNaN() || (x.Inf? && y.Inf?) || (x.Finite? && y.Finite? && x.v == 0.0 && y.v == 0.0)
    ensures r.IsFinite() <==> x.Finite? && (y.Inf? || (y.Finite? && y.v != 0.0))
  {
    match (x, y)
    case (NaN, _) => NaN
    case (_, NaN) => NaN
    case (Finite(a), Finite(b)) => Divide(a, b)
    case (Finite(_), Inf(_)) => Finite(0.0)
    case (Inf(_), Inf(_)) => NaN
    case (Inf(neg), Finite(b)) => Inf(if b < 0.0 then !neg else neg)
  }

  function Min(a: int, b: int): int {
    if a <= b then a else b
  }

  function Max(a: int, b: int): int {
    if a >= b then a else b
  }

  function MaxReal(a: real, b: real): real {
    if a >= b then a else b
  }

  function MinReal(a: real, b: real): real {
    if a <= b then a else b
  }
}
